=== FILE: README.md ===
# Beer Game engine of supply-chain-optimizer, in Dafny

This project models the Beer Game core of the supply-chain optimizer backend:

- `BeerGameEngine` (`backend/core/game_engine.py`).
  - It creates games with a number of competing supply chains.
  - Players join one of four roles (Shop, Retailer, Wholesaler, Factory) in a chain.
  - It records customer orders and inter-role orders with a four-week lead time.
  - It advances the game week, which is meant to run every node's weekly step:
    receive the arrivals, serve demand, book backorder, cost and history.
  - It reports the game state.
- The data models it uses: `SupplyChainNode`/`SupplyChain` and `Order` (with `OrderStatus`).
- Alongside the engine, though the engine does not use them: the `Inventory` model and the factory machine grid.
- The helpers of `backend/core/utils.py`: ids, cost formulas, demand patterns, `clamp` and `deep_merge`.

The engine is modelled as an immutable value, `GameEngine.Engine`, made of four maps keyed by string ids:

- games;
- supply chains;
- per-chain order ledgers;
- the order queue, which nothing ever reads.

Each public engine method that changes state becomes a pure function that returns the next engine together with the method's result; `get_game_state`, which changes nothing, returns only its result.

- `join_game`, `process_order` and `get_game_state` return `None` on failure; here they return a `Result` carrying an `EngineError`.
- `place_customer_order` and `advance_week` return `False` on failure and keep their `bool` result here.
- The two places where the source would raise a `KeyError` become explicit error variants:
  - `process_order` on a missing ledger;
  - `get_game_state` on an unregistered listed chain.
  
  The lemmas prove that a well-formed registry never reaches either of them.
- The random UUID behind every id is an 8-character `Token` parameter.

Modules follow the source files:

| module | file | source |
|---|---|---|
| `Wrappers` | `wrappers.dfy` | `Option` and `Result` |
| `Config` | `config.dfy` | the constants of `backend/core/constants.py` |
| `Utils` | `utils.dfy` | `backend/core/utils.py` |
| `Orders` | `orders.dfy` | `backend/models/orders.py` |
| `SupplyChains` | `supply_chain.dfy` | `backend/models/supply_chain.py` |
| `Inventories` | `inventory.dfy` | `backend/models/inventory.py` |
| `Factories` | `factory.dfy` | `backend/models/factory.py` |
| `NodeWeek` | `node_week.dfy` | the per-node weekly algorithm of the engine |
| `GameEngine` | `engine.dfy` | the engine's registries and public methods |

## Behaviour as written

The model follows the code as written:

- **Backorder accumulates.** `node.backorder += demand - fulfilled` adds to the previous backorder instead of replacing it.
- **The stockout charge is always zero.** `calculate_backorder_cost` charges `max(0, -quantity)`, but the engine passes the non-negative backorder.
  - `NodeWeek.ShopFiveWeekScenario` proves the effect. A Shop with 100 units facing a demand of 30 for five weeks ends with cost 60 and backorder 50.
- **Histories are never truncated.** Only `to_dict` windows them to the last 52 entries.
- **Joining overwrites.** A second join of an occupied role replaces the node.
- **A non-positive chain count is accepted.** `create_game` with `num_chains <= 0` creates a game with no chains; it does not fail.
- **`advance_week` never reaches a chain.** See Findings.

## Model

| member | source | states |
|---|---|---|
| Utils.GenerateId | backend/core/utils.py:12-15 | an id is the bare token for an empty prefix, otherwise prefix, underscore and token, ending in the token |
| Utils.GenerateIdInjective | backend/core/utils.py:12-15 | ids with the same prefix are equal only when their tokens are |
| Utils.NatToString | backend/core/game_engine.py:60 | `str(i)` of a non-negative index is a non-empty digit string, at least two digits from 10 on |
| Utils.NatToStringInjective | backend/core/game_engine.py:59-60 | distinct chain indices print as distinct strings |
| Utils.InventoryCost | backend/core/utils.py:60-70 | holding cost is zero for non-positive stock, quantity times rate otherwise, never negative for a non-negative rate |
| Utils.BackorderCost | backend/core/utils.py:73-83 | the backorder charge is zero for every non-negative argument and charges only the negative part |
| Utils.Demand | backend/core/utils.py:33-57 | step demand is amplitude or offset; constant and unknown patterns give the offset |
| Utils.StepDemandPhases | backend/core/utils.py:50-51 | within each 20-week period the step pattern gives amplitude for the first ten weeks and offset for the next ten |
| Utils.StepDemandPeriodic | backend/core/utils.py:50-51 | the step pattern repeats every 20 weeks |
| Utils.Clamp | backend/core/utils.py:151-162 | the result lies in the range when it is non-empty; values in range are kept and values outside are moved to the nearer bound; an empty range yields the minimum |
| Utils.DeepMerge | backend/core/utils.py:118-134 | the merged keys are the union; base-only keys keep their value, an update wins unless both sides are dictionaries, and then the merged value is the deep merge of the two dictionaries |
| Utils.MergeValue | backend/core/utils.py:129-133 | for one shared key the update wins unless both values are dictionaries, and then the result is the deep merge of the two |
| Utils.DeepMergeFlat | backend/core/utils.py:128-134 | with only scalar updates, deep merge is the right-biased map union |
| Utils.DeepMergeEmptyUpdates | backend/core/utils.py:128-134 | merging no updates returns the base |
| Utils.DeepMergeEmptyBase | backend/core/utils.py:128-134 | merging into an empty base returns the updates |
| Utils.DeepMergeSelf | backend/core/utils.py:128-134 | merging a dictionary with itself returns it, at every depth |
| Utils.MergeValueSelf | backend/core/utils.py:129-133 | merging a value with itself returns it |
| Orders.StatusValue | backend/models/orders.py:9-15 | each status's string value parses back to that status |
| Orders.ParseStatusInverse | backend/models/orders.py:9-15 | a string that parses to a status is that status's value, so the five values are the only parseable strings |
| Orders.StatusValuesDistinct | backend/models/orders.py:9-15 | the five statuses have five distinct string values |
| Orders.NewOrder | backend/models/orders.py:19-31 | a new order is pending with no actual delivery week and carries the given fields |
| Orders.Deliver | backend/core/game_engine.py:286-288 | delivering sets status delivered and the actual week and changes nothing else |
| Orders.IsDelayed | backend/models/orders.py:34-38 | an undelivered order is delayed exactly when the current week is past its delivery week; a delivered one exactly when its recorded week, or 0 when none is recorded, is past the delivery week |
| Orders.DelayOfDeliveredIgnoresWeek | backend/models/orders.py:34-37 | for a delivered order the verdict ignores the week asked about and compares the recorded week, or 0, with the promised one |
| Orders.DelayOfUndelivered | backend/models/orders.py:34-38 | an undelivered order is delayed exactly when the current week is past its delivery week |
| Orders.DelayOfUndeliveredPersists | backend/models/orders.py:38 | an undelivered order once delayed stays delayed in later weeks |
| Orders.DeliveredOnTimeNotDelayed | backend/models/orders.py:36-37 | an order delivered in its promised week is never delayed |
| Orders.DeliveredLateIsDelayed | backend/models/orders.py:36-37 | an order delivered after its promised week is always delayed |
| SupplyChains.NewNode | backend/models/supply_chain.py:9-21 | a new node has the given identity and inventory and zero backorder, orders and cost, with empty histories |
| SupplyChains.Window | backend/models/supply_chain.py:34-35 | `history[-52:]` has min(length, 52) entries and is a suffix of the history |
| SupplyChains.WindowSlides | backend/models/supply_chain.py:34-35 | appending to a full history drops the oldest windowed entry |
| SupplyChains.ViewNode | backend/models/supply_chain.py:23-36 | the node view copies every scalar, and each history in the view is the suffix of the node's history of length min(length, 52) |
| SupplyChains.NewChain | backend/models/supply_chain.py:40-51 | a new chain has no node in any role, week 0 and stored cost 0 |
| SupplyChains.GetNode | backend/models/supply_chain.py:53-61 | a string that is not one of the four roles gets no node |
| SupplyChains.SetNode | backend/models/supply_chain.py:63-72 | after setting, the role returns the node, every other role is unchanged, and an unknown role changes nothing |
| SupplyChains.ChainExtensionality | backend/models/supply_chain.py:43-50 | a chain is determined by its header fields and its four role slots |
| SupplyChains.PresentPositions | backend/models/supply_chain.py:76 | filtering empty slots keeps slot order; each present node sits after the present nodes before it |
| SupplyChains.GetNodes | backend/models/supply_chain.py:74-76 | at most four nodes, exactly the present ones, in role order Shop, Retailer, Wholesaler, Factory |
| SupplyChains.TotalCost | backend/models/supply_chain.py:78-80 | the chain cost is the sum of the four slot costs, an empty slot counting zero |
| SupplyChains.PresentCost | backend/models/supply_chain.py:78-80 | summing present nodes equals summing slot costs |
| SupplyChains.TotalCostBounds | backend/models/supply_chain.py:78-80 | a chain with no nodes costs zero; with non-negative node costs the chain cost is non-negative |
| SupplyChains.SetNodeCost | backend/models/supply_chain.py:63-80 | replacing a role's node changes the chain cost by the new cost minus the old occupant's |
| SupplyChains.ViewChain | backend/models/supply_chain.py:82-94 | the chain view reports the recomputed node-cost sum, not the stored field, and each role's slot holds the node view of that role's node, or nothing for an empty slot |
| Inventories.NewItem | backend/models/inventory.py:8-15 | a new item is empty with capacity 10000 and holding cost 0.5 |
| Inventories.AddItem | backend/models/inventory.py:35-37 | the item is stored under its id, other items are unchanged, and keying and capacity are preserved |
| Inventories.GetItem | backend/models/inventory.py:39-43 | a known id returns its item unchanged; an unknown id inserts and returns a default item named after the id |
| Inventories.GetQuantity | backend/models/inventory.py:45-47 | a known item's quantity, or 0 with the id registered as a side effect |
| Inventories.AddQuantity | backend/models/inventory.py:49-56 | succeeds exactly when the new quantity is within capacity and then commits it; on refusal only the default insertion happens |
| Inventories.RemoveQuantity | backend/models/inventory.py:58-67 | removes min(held, asked), never more than either, and keeps capacity for a non-negative request |
| Inventories.AddThenRemove | backend/models/inventory.py:49-67 | removing a just-added amount from non-negative stock restores the stock and returns that amount |
| Inventories.CostSumRemove | backend/models/inventory.py:69-74 | the holding-cost sum does not depend on the order items are visited |
| Inventories.CostSumNonNegative | backend/models/inventory.py:69-74 | with non-negative unit costs the total holding cost is non-negative |
| Inventories.GetTotalCost | backend/models/inventory.py:69-74 | the loop total equals the holding cost summed over all items, and is non-negative for non-negative rates |
| Factories.NewMachine | backend/models/factory.py:9-24 | a new machine has a 1x1 footprint, no rotation and is active |
| Factories.NewFactory | backend/models/factory.py:48-62 | a new factory is an empty 100x100 grid satisfying the placement invariant |
| Factories.CheckOverlap | backend/models/factory.py:96-100 | positive-size rectangles overlap exactly when some grid cell lies in both |
| Factories.OverlapSymmetric | backend/models/factory.py:96-100 | overlap does not depend on argument order |
| Factories.SharedEdgeIsNoOverlap | backend/models/factory.py:96-100 | rectangles that only touch do not overlap |
| Factories.IsPositionValid | backend/models/factory.py:84-94 | a position is valid exactly when it lies on the grid and overlaps no placed machine |
| Factories.AddMachine | backend/models/factory.py:65-75 | succeeds exactly when the position is valid, then stores the machine under its id; otherwise nothing changes; only the machine map ever changes |
| Factories.RemoveMachine | backend/models/factory.py:77-82 | succeeds exactly when the id is present; the id is gone, the other machines are unchanged, and only the machine map changes |
| Factories.AddMachinePreservesValid | backend/models/factory.py:65-94 | adding keeps every machine on the grid and no two overlapping |
| Factories.RemoveMachinePreservesValid | backend/models/factory.py:77-82 | removing keeps the placement invariant |
| Factories.ReAddOverlappingSelfFails | backend/models/factory.py:72-92 | re-adding under a present id fails when the new footprint overlaps the stored one, since that machine is checked too |
| Factories.AddThenRemove | backend/models/factory.py:65-82 | adding a new machine and removing it restores the factory |
| NodeWeek.DueOrders | backend/core/game_engine.py:284-290 | the due orders are the ledger's orders addressed to the role and due this week, each as many times as the ledger holds it and no other order |
| NodeWeek.IncomingQuantity | backend/core/game_engine.py:240-241 | the quantity a node receives is the total quantity of the orders due to it this week |
| NodeWeek.GetIncomingOrders | backend/core/game_engine.py:272-290 | every due order is marked delivered in place with this week and every other order is untouched; the returned orders are the due ones of the updated ledger |
| NodeWeek.IncomingTwice | backend/core/game_engine.py:284-290 | a second pass for the same role and week hands over the same orders again and leaves the ledger as it was |
| NodeWeek.ArrivesAfterLeadTime | backend/core/game_engine.py:284-290 | an order due four weeks after creation is untouched in every other week and delivered in exactly that week |
| NodeWeek.IncomingIgnoresDeliveries | backend/core/game_engine.py:284-290 | orders already marked delivered this week do not change what a role receives, since the match ignores status |
| NodeWeek.NodeStepIgnoresDeliveries | backend/core/game_engine.py:239-241 | a node's step is the same on a ledger that differs only by this week's delivery marks |
| NodeWeek.SumQuantitiesNonNegative | backend/core/game_engine.py:241 | arrivals of non-negative quantities add non-negative stock |
| NodeWeek.ProcessNodeWeek | backend/core/game_engine.py:230-270 | stock is max(0, stocked - demand); a shortfall is added to the backorder and meeting demand clears it; from a non-negative backorder the cost grows by exactly the holding cost; both histories grow by one entry |
| NodeWeek.ShipmentConservation | backend/core/game_engine.py:245-249 | the amount shipped is between zero and the demand |
| NodeWeek.HistoriesGrowUnbounded | backend/core/game_engine.py:269-270 | from any node and any ledger, after n weeks each stored history has grown by exactly n entries, while the view stays within 52 |
| NodeWeek.ShopFiveWeekScenario | backend/core/game_engine.py:239-270 | a Shop with 100 units and demand 30 for five weeks has inventories 70, 40, 10, 0, 0, backorder 50 and cost 60 |
| GameEngine.GameIdShape | backend/core/utils.py:18-20 | a game id is "game_" and an 8-character token |
| GameEngine.ChainId | backend/core/game_engine.py:60 | chain i's id is the game's key joined with the selector "chain_" and the digits of i, and has the chain-id shape for a generated game id |
| GameEngine.QualifiedChainId | backend/core/game_engine.py:91 | the game id and the selector can be read back from the key |
| GameEngine.SelectorReachesChain | backend/core/game_engine.py:59-60 | within one game the selector "chain_i" and no other reaches chain i |
| GameEngine.IndexedChainKey | backend/core/game_engine.py:217 | the key the per-chain step builds is the game's key joined with "chain_" and the given index |
| GameEngine.ChainIdInjective | backend/core/game_engine.py:59-60 | distinct indices give distinct chain ids |
| GameEngine.DoubledKeyIsNoChainKey | backend/core/game_engine.py:202-217 | the key built from a full chain id is never a chain id |
| GameEngine.NewChainIds | backend/core/game_engine.py:59-60 | the created ids are the chain ids of the indices in order, none for a non-positive count; they are pairwise distinct and of chain-id shape for a generated game id |
| GameEngine.EmptyEngineWellFormed | backend/core/game_engine.py:26-31 | a fresh engine satisfies the registry invariant and holds no order that is not pending or delivered |
| GameEngine.RegisterChains | backend/core/game_engine.py:59-65 | the loop appends the ids to the game and registers a fresh chain, an empty ledger and an empty queue for each |
| GameEngine.CreateGame | backend/core/game_engine.py:33-68 | a waiting week-0 game is stored under the generated id listing its chains; the new chains, ledgers and queues are added and everything else kept |
| GameEngine.CreateGameChains | backend/core/game_engine.py:59-65 | exactly max(0, num_chains) distinct ids, the i-th `game_id_chain_i`, each with a fresh chain and an empty ledger; nothing is added for a non-positive count |
| GameEngine.FreshChainsShape | backend/core/game_engine.py:59-62 | every created chain is stored under its own id of chain shape at week 0 |
| GameEngine.CreateGamePreservesInvariants | backend/core/game_engine.py:45-65 | creating a game keeps the registry invariant |
| GameEngine.JoinGame | backend/core/game_engine.py:70-110 | fails without change on an unknown game, then an invalid role, then an unknown chain; otherwise the role gets a new node with 100 units and the player id is returned; the chain's other roles, id, game id, week and stored cost are unchanged |
| GameEngine.RejoinOverwrites | backend/core/game_engine.py:96-107 | a second join of the same role replaces the first player's node |
| GameEngine.JoinGamePreservesInvariants | backend/core/game_engine.py:91-107 | joining keeps the registry invariant |
| GameEngine.PlaceCustomerOrder | backend/core/game_engine.py:112-135 | succeeds exactly when the chain exists with a Shop, then overwrites only the Shop's incoming order |
| GameEngine.LastCustomerOrderWins | backend/core/game_engine.py:131-133 | of two customer orders only the last one remains |
| GameEngine.PlaceCustomerOrderPreservesInvariants | backend/core/game_engine.py:125-135 | placing a customer order keeps the registry invariant |
| GameEngine.ProcessOrder | backend/core/game_engine.py:137-183 | fails without change on a missing chain or node; otherwise appends one pending order due four weeks after the chain's week and sets the sender's current order; the chain's other roles, id, game id, week and stored cost are unchanged |
| GameEngine.ProcessOrderNeverMissesLedger | backend/core/game_engine.py:179 | in a well-formed registry the ledger append never fails |
| GameEngine.OrdersAlwaysDueInWeekFour | backend/core/game_engine.py:165-166 | since chain weeks never move, every recorded order is created in week 0 and due in week 4 |
| GameEngine.ProcessOrderPreservesInvariants | backend/core/game_engine.py:151-183 | processing an order keeps the registry invariant |
| GameEngine.ProcessSlot | backend/core/game_engine.py:226-228 | a slot keeps its occupancy and its node takes one step with non-negative stock and one more history entry; the ledger has exactly the orders due to that slot's role marked delivered this week |
| GameEngine.ProcessChainWeek | backend/core/game_engine.py:217-228 | the chain is stamped with the week, keeps its identity and occupancy, and the ledger keeps its length |
| GameEngine.ChainWeekNodeValues | backend/core/game_engine.py:223-290 | each present node ends as its own node step against the ledger the chain step started with, whatever the role order |
| GameEngine.ChainWeekNodes | backend/core/game_engine.py:223-228 | each present node ends with non-negative stock, non-decreasing cost and one more history entry |
| GameEngine.ChainWeekDelivers | backend/core/game_engine.py:226-228 | after the chain step each order due this week to a present role is delivered exactly once and the rest are untouched |
| GameEngine.ProcessChainKey | backend/core/game_engine.py:217-228 | an unregistered key changes nothing; a registered chain gets the week; a chain stored under its own id with a ledger becomes, with that ledger, its weekly step's result; other chains and ledgers are unchanged |
| GameEngine.ProcessSupplyChainWeek | backend/core/game_engine.py:208-228 | the chain under `game_id_chain_<index>`, if any, takes its weekly step against its ledger, and nothing else changes |
| GameEngine.BareIndexReachesChain | backend/core/game_engine.py:214-218 | passing the bare index i steps exactly chain i |
| GameEngine.ProcessChains | backend/core/game_engine.py:202-203 | when no built key names a chain the loop changes nothing |
| GameEngine.AdvanceWeek | backend/core/game_engine.py:185-206 | an unknown game fails without change; a known game's week rises by exactly one, with no limit |
| GameEngine.AdvanceWeekReachesNoChain | backend/core/game_engine.py:202-218 | in a well-formed registry advancing a week changes no chain and no ledger |
| GameEngine.AdvanceWeekPreservesInvariants | backend/core/game_engine.py:194-206 | advancing a week keeps the registry invariant |
| GameEngine.ProcessListedChainsEach | backend/core/game_engine.py:202-203 | over distinct registered ids the intended loop gives each listed chain and its ledger its weekly step's result and leaves the rest as they were |
| GameEngine.ProcessListedChainsSteps | backend/core/game_engine.py:202-203 | the intended loop stamps the week on every listed chain and leaves unlisted ones alone |
| GameEngine.ProcessListedChains | backend/core/game_engine.py:202-203 | the corrected loop, which hands each listed chain id to the per-chain step as it is; it keeps the game registry, the order queue and every registry's keys |
| GameEngine.AdvanceWeekIntended | backend/core/game_engine.py:185-206 | the intended advance, running `ProcessListedChains` over the game's chain ids, moves the game's week by one and keeps every registry's keys |
| GameEngine.AdvanceWeekIntendedSteps | backend/core/game_engine.py:198-203 | with the intended loop every listed registered chain reaches the game's new week |
| GameEngine.AdvanceWeekIntendedStepsEveryChain | backend/core/game_engine.py:198-203 | in a well-formed registry every chain of the game, with its ledger, becomes its weekly step's result at the new week; other chains and ledgers are unchanged |
| GameEngine.AdvanceWeekIntendedDelivers | backend/core/game_engine.py:198-290 | in a well-formed registry, after the intended advance every listed chain's present nodes have each taken their own node step against the week's starting ledger, and exactly the orders due this week to a present role are delivered |
| GameEngine.CreateGameKeepsStatuses | backend/models/orders.py:9-15 | no ledger holds an order whose status is not pending or delivered after create_game, which adds only empty ledgers |
| GameEngine.JoinGameKeepsStatuses | backend/core/game_engine.py:91-107 | join_game sets no order status |
| GameEngine.PlaceCustomerOrderKeepsStatuses | backend/core/game_engine.py:125-135 | place_customer_order sets no order status |
| GameEngine.ProcessOrderKeepsStatuses | backend/core/game_engine.py:168-180 | process_order only adds an order with the dataclass's default status, pending |
| GameEngine.ChainWeekKeepsStatuses | backend/core/game_engine.py:284-289 | a chain's weekly step only sets orders to delivered |
| GameEngine.ChainKeyKeepsStatuses | backend/core/game_engine.py:208-228 | the per-chain step leaves every ledger pending or delivered |
| GameEngine.ProcessChainsKeepStatuses | backend/core/game_engine.py:202-203 | so does the as-written loop of advance_week |
| GameEngine.ListedChainsKeepStatuses | backend/core/game_engine.py:202-203 | so does the corrected loop |
| GameEngine.AdvanceWeekKeepsStatuses | backend/core/game_engine.py:185-206 | advance_week as written keeps every ledger pending or delivered |
| GameEngine.AdvanceWeekIntendedKeepsStatuses | backend/core/game_engine.py:185-206 | so does the intended advance, which does deliver orders |
| GameEngine.GetGameState | backend/core/game_engine.py:292-318 | an unknown game fails; otherwise the game's fields and the view of every listed chain in order, available whenever all listed chains are registered |
| GameEngine.GetGameStateOfKnownGame | backend/core/game_engine.py:307-309 | in a well-formed registry every known game has a state view |

## Left out

- Utils.Demand: the "sine_wave" pattern uses floating-point `math.sin` and "random" draws from a random generator, so the function requires the pattern to be neither.
- The UUID behind `generate_id` is an 8-character token parameter. Uniqueness across calls is the caller's responsibility.
- Timestamps (`started_at`, `created_at`) and `get_timestamp` read the clock and are dropped. The `to_dict` views therefore omit `created_at`.
- Logging calls have no effect on state and are dropped.
- Costs are exact reals. Python float rounding is not modelled; 0.5 and 2.0 are exact in binary anyway.
- Integers are unbounded, as Python's are.
- `validate_email`, `safe_json_encode` and `safe_json_decode` rely on regular expressions and JSON text processing. Nothing in the engine calls them.
- Utils.DeepMerge: dictionary values are modelled as a tree of string leaves and nested maps. Other Python value types are folded into the leaf case.
- `calculate_demand` is never called by the engine, so customer demand only enters through `place_customer_order`.
- Factories.NewMachine: power level, recipe, progress and item maps take no part in placement and are not stored.
- Factory power, production rate, efficiency and global inventory are not stored. So `get_total_power_consumption` and the `to_dict` of machines and factories are left out.
- Inventories.WithinCapacity assumes a non-negative capacity. For a negative capacity the source's `remove_quantity` can break the "quantity within capacity" reading; only `add_quantity` enforces it.
- Inventories.GetTotalCost is stated against a sum taken in an arbitrary key order. Python sums in insertion order, and a real sum does not depend on the order.
- The order queue is created per chain and never read or written afterwards. It is carried but has no operations.
- `Order.to_dict` and `InventoryItem.to_dict` are plain field copies and are not modelled.
- GameEngine.JoinGame: its three failures return `None` in the source; here they are told apart as `EngineError` values.
- GameEngine.ProcessOrder: its two failures return `None` in the source; here they are told apart as `EngineError` values.
- GameEngine.ProcessOrder: the source's `KeyError` on a chain without a ledger becomes `LedgerMissing`.
- GameEngine.GetGameState: the source's `KeyError` on an unregistered listed chain becomes `ChainNotFound`.
- `backend/models/__init__.py` does not export `OrderStatus`, which the engine imports from it. The model assumes the import resolves.
- `GameMode` and the scoring table in `backend/core/constants.py` are imported but unused by the engine.
- The frontend, concurrency between players, and persistence are not part of this model.
- The engine imports `ORDER_DELAY_WEEKS` from `backend/core/constants.py`, which does not define it; `game_engine.py` defines it as 4 only at its end. The model assumes the import resolves to 4 (`Config.LeadTime`).
- Default arguments are not modelled; every parameter is explicit. These are `create_game`'s `num_chains=1`, `weeks=52` and `demand_pattern="sine_wave"`, `calculate_demand`'s `amplitude=10` and `offset=5`, and `generate_id`'s `prefix=""`.
- Utils.Clamp: works on exact reals, so Python's NaN and infinities, for which `max`/`min` behave differently, are not modelled.

## Findings

| source | as written | input that shows it | evidently intended | confidence | as-written member | corrected member |
|---|---|---|---|---|---|---|
| backend/core/game_engine.py:202-217 | `advance_week` passes each full chain id as `chain_index`, so `_process_supply_chain_week` looks up `game_id + "_chain_" + game_id + "_chain_" + i`, which is never registered | any game with one joined chain: after `advance_week` the chain's week, inventories and ledger are unchanged | every chain the game lists takes its weekly step in the new week | high, not executed | GameEngine.AdvanceWeekReachesNoChain | GameEngine.AdvanceWeekIntendedStepsEveryChain |

=== FILE: config.dfy ===
/**
 * The Beer Game configuration values the engine and models read from
 * `backend/core/constants.py`, lifted to constants.
 */
module Config {

  /** The four role names, in upstream order. */
  const Shop: string := "Shop"
  const Retailer: string := "Retailer"
  const Wholesaler: string := "Wholesaler"
  const Factory: string := "Factory"

  /** `BEER_GAME_ROLES`: the only role strings the engine accepts. */
  const Roles: seq<string> := [Shop, Retailer, Wholesaler, Factory]

  predicate IsRole(role: string) {
    role in Roles
  }

  /** Weeks between placing an order and its delivery (`ORDER_DELAY_WEEKS`). */
  const LeadTime: int := 4

  /** Inventory a freshly joined node starts with. */
  const InitialInventory: int := 100

  /** Holding cost per unit of on-hand inventory per week. */
  const HoldingCostPerUnit: real := 0.5

  /** Stockout cost per unit of backorder per week. */
  const StockoutCostPerUnit: real := 2.0

  /** Number of history entries a node's dictionary view keeps. */
  const HistoryWindow: nat := 52
}

=== FILE: engine.dfy ===
/**
 * `BeerGameEngine` of `backend/core/game_engine.py` as a value: three
 * registries keyed by string ids (games, chains, per-chain order ledgers)
 * plus the never-read order queue. Each public method is a pure state
 * transition returning the next engine and the method's result.
 */
module GameEngine {
  import opened Wrappers
  import opened Config
  import opened Utils
  import opened Orders
  import opened SupplyChains
  import opened NodeWeek

  /** Game lifecycle; only `Waiting` is ever assigned. */
  datatype GameStatus = Waiting | Playing | Finished

  /** The game record held in `games`. */
  datatype Game = Game(
    gameId: string,
    numChains: int,
    weeks: int,
    demandPattern: string,
    currentWeek: int,
    status: GameStatus,
    chainIds: seq<string>)

  datatype Engine = Engine(
    games: map<string, Game>,
    chains: map<string, Chain>,
    orders: map<string, seq<Order>>,
    orderQueue: map<string, seq<int>>)

  /**
   * Why a call returned `None`/`False`. `LedgerMissing` and a `ChainNotFound`
   * from `GetGameState` stand for the `KeyError` the source would raise.
   */
  datatype EngineError = GameNotFound | InvalidRole | ChainNotFound | NodeNotFound | LedgerMissing

  /** A freshly constructed engine. */
  const EmptyEngine: Engine := Engine(map[], map[], map[], map[])

  // ----- identifiers -----

  /**
   * The id `create_game` gives chain `i` of a game: `f"{game_id}_chain_{i}"`.
   * It is the game's registry key joined with the selector "chain_<i>", and
   * ends in the decimal digits of `i`; for a generated game id it has the
   * chain-id shape.
   */
  function ChainId(gameId: string, i: nat): (id: string)
    ensures id == QualifiedChainId(gameId, "chain_" + NatToString(i))
    ensures id[|gameId| + 7..] == NatToString(i)
    ensures IsGameId(gameId) ==> IsChainKey(id)
  {
    var id := gameId + "_chain_" + NatToString(i);
    assert id == QualifiedChainId(gameId, "chain_" + NatToString(i));
    assert id[|gameId| + 7..] == NatToString(i);
    assert IsGameId(gameId) ==> id[..5] == gameId[..5] && id[13..20] == "_chain_" && id[20..] == NatToString(i);
    id
  }

  /**
   * The registry key the per-chain methods build: `f"{game_id}_{chain_id}"`.
   * The game id and the selector can be read back from it.
   */
  function QualifiedChainId(gameId: string, selector: string): (key: string)
    ensures |key| == |gameId| + 1 + |selector|
    ensures key[..|gameId|] == gameId && key[|gameId|] == '_' && key[|gameId| + 1..] == selector
  {
    gameId + "_" + selector
  }

  /** Within one game, the selector "chain_<i>" and no other reaches chain `i`. */
  lemma SelectorReachesChain(gameId: string, selector: string, i: nat)
    ensures QualifiedChainId(gameId, selector) == ChainId(gameId, i) <==> selector == "chain_" + NatToString(i)
  {
    if QualifiedChainId(gameId, selector) == ChainId(gameId, i) {
      assert selector == QualifiedChainId(gameId, selector)[|gameId| + 1..];
    }
  }

  /**
   * The key `_process_supply_chain_week` looks up: `f"{game_id}_chain_{chain_index}"`,
   * the game's key joined with the selector "chain_" + index.
   */
  function IndexedChainKey(gameId: string, chainIndex: string): (key: string)
    ensures key == QualifiedChainId(gameId, "chain_" + chainIndex)
    ensures key[|gameId| + 7..] == chainIndex
  {
    var key := gameId + "_chain_" + chainIndex;
    assert key == QualifiedChainId(gameId, "chain_" + chainIndex);
    assert key[|gameId| + 7..] == chainIndex;
    key
  }

  /** Shape of `generate_game_id()`: "game_" followed by the 8-character token. */
  predicate IsGameId(g: string) {
    |g| == 13 && g[..5] == "game_"
  }

  /** Shape of a chain id: a game id, "_chain_", then a decimal index. */
  predicate IsChainKey(k: string) {
    |k| > 20 && k[..5] == "game_" && k[13..20] == "_chain_" && AllDigits(k[20..])
  }

  lemma GameIdShape(token: Token)
    ensures IsGameId(GenerateId("game", token))
  {
  }

  /** Distinct indices give distinct chain ids. */
  lemma ChainIdInjective(g: string, i: nat, j: nat)
    requires ChainId(g, i) == ChainId(g, j)
    ensures i == j
  {
    NatToStringInjective(i, j);
  }

  /**
   * Prefixing a full chain id with its game id and "_chain_" a second time
   * never yields a chain id: after the prefix comes the letter 'g', not a digit.
   */
  lemma DoubledKeyIsNoChainKey(g: string, id: string)
    requires IsGameId(g) && IsChainKey(id)
    ensures !IsChainKey(IndexedChainKey(g, id))
  {
    var k := IndexedChainKey(g, id);
    assert k[20] == id[0] == 'g';
    assert k[20..][0] == 'g';
  }

  /**
   * The ids of chains `from .. n - 1` of a game, in order: pairwise
   * distinct, and of the chain-id shape when the game id is generated.
   */
  function NewChainIds(gameId: string, from: nat, n: int): (ids: seq<string>)
    ensures |ids| == if n > from then n - from else 0
    ensures forall j :: 0 <= j < |ids| ==> ids[j] == ChainId(gameId, from + j)
    ensures forall a, b :: 0 <= a < b < |ids| ==> ids[a] != ids[b]
    ensures IsGameId(gameId) ==> forall j :: 0 <= j < |ids| ==> IsChainKey(ids[j])
  {
    var ids := seq(if n > from then n - from else 0, j requires 0 <= j => ChainId(gameId, from + j));
    IndexedIdsDistinct(gameId, from, ids);
    ids
  }

  /** Ids of consecutive chain indices are pairwise distinct. */
  lemma IndexedIdsDistinct(gameId: string, from: nat, ids: seq<string>)
    requires forall j :: 0 <= j < |ids| ==> ids[j] == ChainId(gameId, from + j)
    ensures forall a, b :: 0 <= a < b < |ids| ==> ids[a] != ids[b]
  {
    forall a, b | 0 <= a < b < |ids|
      ensures ids[a] != ids[b]
    {
      if ids[a] == ids[b] {
        ChainIdInjective(gameId, from + a, from + b);
      }
    }
  }

  // ----- registry invariant -----

  /**
   * Every game is stored under its own id of the generated shape, every id
   * a game lists names a registered chain and no id is listed twice, every
   * chain is stored under its own id of the chain shape, and every chain has
   * a ledger.
   */
  ghost predicate WellFormed(e: Engine) {
    && (forall g :: g in e.games ==> IsGameId(g) && e.games[g].gameId == g)
    && (forall g, i :: g in e.games && 0 <= i < |e.games[g].chainIds| ==>
          IsChainKey(e.games[g].chainIds[i]) && e.games[g].chainIds[i] in e.chains)
    && (forall g, a, b :: g in e.games && 0 <= a < b < |e.games[g].chainIds| ==>
          e.games[g].chainIds[a] != e.games[g].chainIds[b])
    && (forall k :: k in e.chains ==> IsChainKey(k) && e.chains[k].chainId == k)
    && e.orders.Keys == e.chains.Keys
  }

  /** Every chain's week counter is still 0. */
  ghost predicate ChainWeeksZero(e: Engine) {
    forall k :: k in e.chains ==> e.chains[k].currentWeek == 0
  }

  /** Every order in every ledger is pending or delivered. */
  ghost predicate OnlyPendingOrDelivered(e: Engine) {
    forall k :: k in e.orders ==> LedgerPendingOrDelivered(e.orders[k])
  }

  lemma EmptyEngineWellFormed()
    ensures WellFormed(EmptyEngine) && ChainWeeksZero(EmptyEngine)
    ensures OnlyPendingOrDelivered(EmptyEngine)
  {
  }

  // ----- create_game -----

  /** Fresh chains, empty ledgers and empty queues under the given ids. */
  function FreshChains(gameId: string, ids: seq<string>): map<string, Chain> {
    map k | k in ids :: NewChain(k, gameId)
  }

  function FreshLedgers(ids: seq<string>): map<string, seq<Order>> {
    map k | k in ids :: []
  }

  function FreshQueues(ids: seq<string>): map<string, seq<int>> {
    map k | k in ids :: []
  }

  /** Registering one id and then the rest is registering all of them. */
  lemma FreshChainsCons(chains: map<string, Chain>, gameId: string, id: string, rest: seq<string>)
    ensures chains[id := NewChain(id, gameId)] + FreshChains(gameId, rest) == chains + FreshChains(gameId, [id] + rest)
  {
    var lhs := chains[id := NewChain(id, gameId)] + FreshChains(gameId, rest);
    var rhs := chains + FreshChains(gameId, [id] + rest);
    assert forall k :: k in [id] + rest <==> k == id || k in rest;
    assert lhs.Keys == rhs.Keys;
  }

  lemma FreshLedgersCons(orders: map<string, seq<Order>>, id: string, rest: seq<string>)
    ensures orders[id := []] + FreshLedgers(rest) == orders + FreshLedgers([id] + rest)
  {
    var lhs := orders[id := []] + FreshLedgers(rest);
    var rhs := orders + FreshLedgers([id] + rest);
    assert forall k :: k in [id] + rest <==> k == id || k in rest;
    assert lhs.Keys == rhs.Keys;
  }

  lemma FreshQueuesCons(queues: map<string, seq<int>>, id: string, rest: seq<string>)
    ensures queues[id := []] + FreshQueues(rest) == queues + FreshQueues([id] + rest)
  {
    var lhs := queues[id := []] + FreshQueues(rest);
    var rhs := queues + FreshQueues([id] + rest);
    assert forall k :: k in [id] + rest <==> k == id || k in rest;
    assert lhs.Keys == rhs.Keys;
  }

  /** One iteration of the `create_game` loop: registers chain `i` of the game. */
  function RegisterOne(e: Engine, gameId: string, i: nat): Engine
    requires gameId in e.games
  {
    var id := ChainId(gameId, i);
    var game := e.games[gameId];
    Engine(
      e.games[gameId := game.(chainIds := game.chainIds + [id])],
      e.chains[id := NewChain(id, gameId)],
      e.orders[id := []],
      e.orderQueue[id := []])
  }

  /** Registering chain `i` and then chains `i + 1 .. n - 1` is registering chains `i .. n - 1`. */
  lemma RegisterOneThenRest(e: Engine, gameId: string, i: nat, n: int)
    requires gameId in e.games && i < n
    ensures var e' := RegisterOne(e, gameId, i);
      var rest := NewChainIds(gameId, i + 1, n);
      var all := NewChainIds(gameId, i, n);
      && e'.games[gameId := e'.games[gameId].(chainIds := e'.games[gameId].chainIds + rest)]
           == e.games[gameId := e.games[gameId].(chainIds := e.games[gameId].chainIds + all)]
      && e'.chains + FreshChains(gameId, rest) == e.chains + FreshChains(gameId, all)
      && e'.orders + FreshLedgers(rest) == e.orders + FreshLedgers(all)
      && e'.orderQueue + FreshQueues(rest) == e.orderQueue + FreshQueues(all)
  {
    var id := ChainId(gameId, i);
    var game := e.games[gameId];
    var rest := NewChainIds(gameId, i + 1, n);
    assert NewChainIds(gameId, i, n) == [id] + rest;
    assert game.chainIds + [id] + rest == game.chainIds + NewChainIds(gameId, i, n);
    FreshChainsCons(e.chains, gameId, id, rest);
    FreshLedgersCons(e.orders, id, rest);
    FreshQueuesCons(e.orderQueue, id, rest);
  }

  /** The loop of `create_game`: registers chains `i .. n - 1`, each with an empty ledger and queue. */
  function RegisterChains(e: Engine, gameId: string, i: nat, n: int): (r: Engine)
    requires gameId in e.games
    ensures r.games == e.games[gameId := e.games[gameId].(chainIds := e.games[gameId].chainIds + NewChainIds(gameId, i, n))]
    ensures r.chains == e.chains + FreshChains(gameId, NewChainIds(gameId, i, n))
    ensures r.orders == e.orders + FreshLedgers(NewChainIds(gameId, i, n))
    ensures r.orderQueue == e.orderQueue + FreshQueues(NewChainIds(gameId, i, n))
    decreases n - i
  {
    if i >= n then
      assert NewChainIds(gameId, i, n) == [];
      assert e.games[gameId].chainIds + [] == e.games[gameId].chainIds;
      e
    else
      RegisterOneThenRest(e, gameId, i, n);
      RegisterChains(RegisterOne(e, gameId, i), gameId, i + 1, n)
  }

  /** Filling in the chain list of a just-stored game with no chains. */
  lemma ListChains(games: map<string, Game>, game: Game, ids: seq<string>)
    requires game.chainIds == []
    ensures var g := game.gameId;
      games[g := game][g := game.(chainIds := game.chainIds + ids)] == games[g := game.(chainIds := ids)]
  {
    assert game.chainIds + ids == ids;
  }

  /**
   * `create_game`: registers a waiting game at week 0 under the generated
   * id, listing chains `0 .. num_chains - 1` (none when `num_chains <= 0`);
   * each listed chain is registered fresh with an empty ledger and queue,
   * and every other game and chain is kept.
   */
  function CreateGame(e: Engine, token: Token, numChains: int, weeks: int, demandPattern: string): (r: (Engine, string))
    ensures r.1 == GenerateId("game", token) && IsGameId(r.1)
    ensures r.0.games == e.games[r.1 := Game(r.1, numChains, weeks, demandPattern, 0, Waiting, NewChainIds(r.1, 0, numChains))]
    ensures r.0.chains == e.chains + FreshChains(r.1, NewChainIds(r.1, 0, numChains))
    ensures r.0.orders == e.orders + FreshLedgers(NewChainIds(r.1, 0, numChains))
    ensures r.0.orderQueue == e.orderQueue + FreshQueues(NewChainIds(r.1, 0, numChains))
  {
    var gameId := GenerateId("game", token);
    var game := Game(gameId, numChains, weeks, demandPattern, 0, Waiting, []);
    ListChains(e.games, game, NewChainIds(gameId, 0, numChains));
    (RegisterChains(e.(games := e.games[gameId := game]), gameId, 0, numChains), gameId)
  }

  /**
   * `create_game` lists exactly `num_chains` distinct chain ids, the `i`-th
   * being `game_id + "_chain_" + i`, registers each fresh with an empty
   * ledger, and adds nothing for a non-positive count.
   */
  lemma CreateGameChains(e: Engine, token: Token, numChains: int, weeks: int, demandPattern: string)
    ensures var (e', gameId) := CreateGame(e, token, numChains, weeks, demandPattern);
      var ids := e'.games[gameId].chainIds;
      && |ids| == (if numChains > 0 then numChains else 0)
      && (forall a, b :: 0 <= a < b < |ids| ==> ids[a] != ids[b])
      && (forall i :: 0 <= i < |ids| ==>
            && ids[i] == ChainId(gameId, i)
            && ids[i] in e'.chains && e'.chains[ids[i]] == NewChain(ids[i], gameId)
            && ids[i] in e'.orders && e'.orders[ids[i]] == [])
      && (numChains <= 0 ==> e'.chains == e.chains && e'.orders == e.orders)
  {
    var gameId := GenerateId("game", token);
    var ids := NewChainIds(gameId, 0, numChains);
    FreshEntries(e.chains, e.orders, gameId, ids);
    if numChains <= 0 {
      assert FreshChains(gameId, ids) == map[] && FreshLedgers(ids) == map[];
    }
  }

  /** Every id of the list finds its fresh chain and empty ledger after the union. */
  lemma FreshEntries(chains: map<string, Chain>, orders: map<string, seq<Order>>, gameId: string, ids: seq<string>)
    ensures forall i :: 0 <= i < |ids| ==>
      && ids[i] in chains + FreshChains(gameId, ids)
      && (chains + FreshChains(gameId, ids))[ids[i]] == NewChain(ids[i], gameId)
      && ids[i] in orders + FreshLedgers(ids) && (orders + FreshLedgers(ids))[ids[i]] == []
  {
    forall i | 0 <= i < |ids|
      ensures ids[i] in FreshChains(gameId, ids) && ids[i] in FreshLedgers(ids)
    {
      assert ids[i] in ids;
    }
  }

  /** The chains `create_game` registers have the chain-id shape and week 0. */
  lemma FreshChainsShape(gameId: string, numChains: int)
    requires IsGameId(gameId)
    ensures var created := FreshChains(gameId, NewChainIds(gameId, 0, numChains));
      forall k :: k in created ==> IsChainKey(k) && created[k].chainId == k && created[k].currentWeek == 0
  {
    var ids := NewChainIds(gameId, 0, numChains);
    forall k | k in ids
      ensures IsChainKey(k)
    {
      var j :| 0 <= j < |ids| && ids[j] == k;
    }
  }

  /** The chain and ledger maps after `create_game` keep the chain part of the invariant. */
  lemma CreateGameKeepsChains(chains: map<string, Chain>, orders: map<string, seq<Order>>, gameId: string, numChains: int)
    requires IsGameId(gameId) && orders.Keys == chains.Keys
    requires forall k :: k in chains ==> IsChainKey(k) && chains[k].chainId == k && chains[k].currentWeek == 0
    ensures var ids := NewChainIds(gameId, 0, numChains);
      var chains' := chains + FreshChains(gameId, ids);
      && (forall k :: k in chains' ==> IsChainKey(k) && chains'[k].chainId == k && chains'[k].currentWeek == 0)
      && (orders + FreshLedgers(ids)).Keys == chains'.Keys
  {
    FreshChainsShape(gameId, numChains);
  }

  /** The game map after `create_game` lists only registered chain keys. */
  lemma CreateGameKeepsGames(games: map<string, Game>, chains: map<string, Chain>, game: Game)
    requires IsGameId(game.gameId)
    requires forall g :: g in games ==> IsGameId(g) && games[g].gameId == g
    requires forall g, i :: g in games && 0 <= i < |games[g].chainIds| ==>
      IsChainKey(games[g].chainIds[i]) && games[g].chainIds[i] in chains
    requires forall g, a, b :: g in games && 0 <= a < b < |games[g].chainIds| ==>
      games[g].chainIds[a] != games[g].chainIds[b]
    requires game.chainIds == NewChainIds(game.gameId, 0, game.numChains)
    ensures var games' := games[game.gameId := game];
      var chains' := chains + FreshChains(game.gameId, game.chainIds);
      && (forall g :: g in games' ==> IsGameId(g) && games'[g].gameId == g)
      && (forall g, i :: g in games' && 0 <= i < |games'[g].chainIds| ==>
            IsChainKey(games'[g].chainIds[i]) && games'[g].chainIds[i] in chains')
      && (forall g, a, b :: g in games' && 0 <= a < b < |games'[g].chainIds| ==>
            games'[g].chainIds[a] != games'[g].chainIds[b])
  {
    var games' := games[game.gameId := game];
    var chains' := chains + FreshChains(game.gameId, game.chainIds);
    forall g, i | g in games' && 0 <= i < |games'[g].chainIds|
      ensures IsChainKey(games'[g].chainIds[i]) && games'[g].chainIds[i] in chains'
    {
      if g != game.gameId {
        assert games'[g] == games[g];
      } else {
        assert game.chainIds[i] in FreshChains(game.gameId, game.chainIds);
      }
    }
  }

  lemma CreateGamePreservesInvariants(e: Engine, token: Token, numChains: int, weeks: int, demandPattern: string)
    requires WellFormed(e) && ChainWeeksZero(e)
    ensures var e' := CreateGame(e, token, numChains, weeks, demandPattern).0;
      WellFormed(e') && ChainWeeksZero(e')
  {
    var gameId := GenerateId("game", token);
    var ids := NewChainIds(gameId, 0, numChains);
    CreateGameKeepsChains(e.chains, e.orders, gameId, numChains);
    CreateGameKeepsGames(e.games, e.chains, Game(gameId, numChains, weeks, demandPattern, 0, Waiting, ids));
  }

  // ----- join_game -----

  /**
   * `join_game`: fails, changing nothing, for an unknown game, a role
   * outside the four, or an unregistered chain; otherwise puts a new node
   * with the initial inventory into the role's slot, replacing any occupant,
   * and returns the generated player id.
   */
  function JoinGame(e: Engine, gameId: string, selector: string, role: string, playerName: string, token: Token)
    : (r: (Engine, Result<string, EngineError>))
    ensures var key := QualifiedChainId(gameId, selector);
      && (gameId !in e.games ==> r.1 == Failure(GameNotFound))
      && (gameId in e.games && !IsRole(role) ==> r.1 == Failure(InvalidRole))
      && (gameId in e.games && IsRole(role) && key !in e.chains ==> r.1 == Failure(ChainNotFound))
      && (r.1.Success? <==> gameId in e.games && IsRole(role) && key in e.chains)
    ensures r.1.Failure? ==> r.0 == e
    ensures var key := QualifiedChainId(gameId, selector);
      r.1.Success? ==>
        && r.1.value == GenerateId("player", token)
        && key in r.0.chains
        && GetNode(r.0.chains[key], role) == Some(NewNode(role, r.1.value, playerName, InitialInventory))
        && (forall other :: other != role ==> GetNode(r.0.chains[key], other) == GetNode(e.chains[key], other))
        && r.0.chains[key].chainId == e.chains[key].chainId
        && r.0.chains[key].gameId == e.chains[key].gameId
        && r.0.chains[key].currentWeek == e.chains[key].currentWeek
        && r.0.chains[key].storedCost == e.chains[key].storedCost
        && r.0.chains.Keys == e.chains.Keys
        && (forall k :: k in e.chains && k != key ==> r.0.chains[k] == e.chains[k])
        && r.0.games == e.games && r.0.orders == e.orders && r.0.orderQueue == e.orderQueue
  {
    var key := QualifiedChainId(gameId, selector);
    if gameId !in e.games then (e, Failure(GameNotFound))
    else if !IsRole(role) then (e, Failure(InvalidRole))
    else if key !in e.chains then (e, Failure(ChainNotFound))
    else
      var playerId := GenerateId("player", token);
      var node := NewNode(role, playerId, playerName, InitialInventory);
      (e.(chains := e.chains[key := SetNode(e.chains[key], role, node)]), Success(playerId))
  }

  /** A second join of the same role silently replaces the first player's node. */
  lemma RejoinOverwrites(e: Engine, gameId: string, selector: string, role: string,
                         name1: string, token1: Token, name2: string, token2: Token)
    requires JoinGame(e, gameId, selector, role, name1, token1).1.Success?
    ensures var e1 := JoinGame(e, gameId, selector, role, name1, token1).0;
      var (e2, r2) := JoinGame(e1, gameId, selector, role, name2, token2);
      && r2.Success?
      && GetNode(e2.chains[QualifiedChainId(gameId, selector)], role)
           == Some(NewNode(role, GenerateId("player", token2), name2, InitialInventory))
  {
  }

  lemma JoinGamePreservesInvariants(e: Engine, gameId: string, selector: string, role: string, playerName: string, token: Token)
    requires WellFormed(e) && ChainWeeksZero(e)
    ensures var e' := JoinGame(e, gameId, selector, role, playerName, token).0;
      WellFormed(e') && ChainWeeksZero(e')
  {
  }

  // ----- place_customer_order -----

  /**
   * `place_customer_order`: overwrites the Shop's `incoming_order` with the
   * quantity and succeeds exactly when the chain exists and has a Shop. The
   * week argument plays no part.
   */
  function PlaceCustomerOrder(e: Engine, gameId: string, selector: string, week: int, quantity: int): (r: (Engine, bool))
    ensures var key := QualifiedChainId(gameId, selector);
      r.1 <==> key in e.chains && e.chains[key].shop.Some?
    ensures !r.1 ==> r.0 == e
    ensures var key := QualifiedChainId(gameId, selector);
      r.1 ==>
        && key in r.0.chains
        && r.0.chains[key] == e.chains[key].(shop := Some(e.chains[key].shop.value.(incomingOrder := quantity)))
        && r.0.chains.Keys == e.chains.Keys
        && (forall k :: k in e.chains && k != key ==> r.0.chains[k] == e.chains[k])
        && r.0.games == e.games && r.0.orders == e.orders && r.0.orderQueue == e.orderQueue
  {
    var key := QualifiedChainId(gameId, selector);
    if key !in e.chains then (e, false)
    else
      var chain := e.chains[key];
      if chain.shop.Some? then
        (e.(chains := e.chains[key := chain.(shop := Some(chain.shop.value.(incomingOrder := quantity)))]), true)
      else
        (e, false)
  }

  /** Customer orders do not accumulate: of two calls, the last one wins. */
  lemma LastCustomerOrderWins(e: Engine, gameId: string, selector: string, w1: int, q1: int, w2: int, q2: int)
    ensures PlaceCustomerOrder(PlaceCustomerOrder(e, gameId, selector, w1, q1).0, gameId, selector, w2, q2)
      == PlaceCustomerOrder(e, gameId, selector, w2, q2)
  {
    var key := QualifiedChainId(gameId, selector);
    if key in e.chains && e.chains[key].shop.Some? {
      var e1 := PlaceCustomerOrder(e, gameId, selector, w1, q1).0;
      assert e1.chains[key := e.chains[key].(shop := Some(e.chains[key].shop.value.(incomingOrder := q2)))]
        == e.chains[key := e.chains[key].(shop := Some(e.chains[key].shop.value.(incomingOrder := q2)))];
    }
  }

  lemma PlaceCustomerOrderPreservesInvariants(e: Engine, gameId: string, selector: string, week: int, quantity: int)
    requires WellFormed(e) && ChainWeeksZero(e)
    ensures var e' := PlaceCustomerOrder(e, gameId, selector, week, quantity).0;
      WellFormed(e') && ChainWeeksZero(e')
  {
  }

  // ----- process_order -----

  /**
   * `process_order`: fails, changing nothing, when the chain or either
   * role's node is missing. Otherwise appends one pending order due
   * `LeadTime` weeks after the chain's current week and records the
   * quantity as the sender's `current_order`; no inventory moves.
   */
  function ProcessOrder(e: Engine, gameId: string, selector: string, fromRole: string, toRole: string,
                        quantity: int, token: Token): (r: (Engine, Result<string, EngineError>))
    ensures var key := QualifiedChainId(gameId, selector);
      && (key !in e.chains ==> r.1 == Failure(ChainNotFound))
      && (key in e.chains && (GetNode(e.chains[key], fromRole).None? || GetNode(e.chains[key], toRole).None?) ==>
            r.1 == Failure(NodeNotFound))
      && (r.1.Success? <==>
            key in e.chains && key in e.orders &&
            GetNode(e.chains[key], fromRole).Some? && GetNode(e.chains[key], toRole).Some?)
    ensures r.1.Failure? ==> r.0 == e
    ensures var key := QualifiedChainId(gameId, selector);
      r.1.Success? ==>
        var chain := e.chains[key];
        var sender := GetNode(chain, fromRole).value;
        && r.1.value == GenerateId("order", token)
        && key in r.0.orders && |r.0.orders[key]| == |e.orders[key]| + 1
        && r.0.orders[key][..|e.orders[key]|] == e.orders[key]
        && r.0.orders[key][|e.orders[key]|] ==
             NewOrder(r.1.value, fromRole, toRole, key, gameId, quantity,
                      chain.currentWeek, chain.currentWeek + LeadTime)
        && key in r.0.chains
        && GetNode(r.0.chains[key], fromRole) == Some(sender.(currentOrder := quantity))
        && (forall other :: other != fromRole ==> GetNode(r.0.chains[key], other) == GetNode(chain, other))
        && r.0.chains[key].chainId == chain.chainId && r.0.chains[key].currentWeek == chain.currentWeek
        && r.0.chains[key].gameId == chain.gameId && r.0.chains[key].storedCost == chain.storedCost
        && r.0.chains.Keys == e.chains.Keys && r.0.orders.Keys == e.orders.Keys
        && (forall k :: k in e.chains && k != key ==> r.0.chains[k] == e.chains[k])
        && (forall k :: k in e.orders && k != key ==> r.0.orders[k] == e.orders[k])
        && r.0.games == e.games && r.0.orderQueue == e.orderQueue
  {
    var key := QualifiedChainId(gameId, selector);
    if key !in e.chains then (e, Failure(ChainNotFound))
    else
      var chain := e.chains[key];
      var fromNode := GetNode(chain, fromRole);
      var toNode := GetNode(chain, toRole);
      if fromNode.None? || toNode.None? then (e, Failure(NodeNotFound))
      else if key !in e.orders then (e, Failure(LedgerMissing))
      else
        var orderId := GenerateId("order", token);
        var order := NewOrder(orderId, fromRole, toRole, key, gameId, quantity,
                              chain.currentWeek, chain.currentWeek + LeadTime);
        var ledger := e.orders[key] + [order];
        assert ledger[..|e.orders[key]|] == e.orders[key];
        var chain' := SetNode(chain, fromRole, fromNode.value.(currentOrder := quantity));
        (e.(chains := e.chains[key := chain'], orders := e.orders[key := ledger]), Success(orderId))
  }

  /** Under the registry invariant the ledger of a registered chain always exists. */
  lemma ProcessOrderNeverMissesLedger(e: Engine, gameId: string, selector: string, fromRole: string, toRole: string,
                                      quantity: int, token: Token)
    requires WellFormed(e)
    ensures ProcessOrder(e, gameId, selector, fromRole, toRole, quantity, token).1 != Failure(LedgerMissing)
  {
  }

  /**
   * Since no chain's week ever moves, every order the engine records is
   * created in week 0 and due in week 4.
   */
  lemma OrdersAlwaysDueInWeekFour(e: Engine, gameId: string, selector: string, fromRole: string, toRole: string,
                                  quantity: int, token: Token)
    requires WellFormed(e) && ChainWeeksZero(e)
    requires ProcessOrder(e, gameId, selector, fromRole, toRole, quantity, token).1.Success?
    ensures var e' := ProcessOrder(e, gameId, selector, fromRole, toRole, quantity, token).0;
      var ledger := e'.orders[QualifiedChainId(gameId, selector)];
      ledger[|ledger| - 1].createdWeek == 0 && ledger[|ledger| - 1].deliveryWeek == LeadTime
  {
  }

  lemma ProcessOrderPreservesInvariants(e: Engine, gameId: string, selector: string, fromRole: string, toRole: string,
                                        quantity: int, token: Token)
    requires WellFormed(e) && ChainWeeksZero(e)
    ensures var e' := ProcessOrder(e, gameId, selector, fromRole, toRole, quantity, token).0;
      WellFormed(e') && ChainWeeksZero(e')
  {
  }

  // ----- the weekly step of one chain -----

  /**
   * Runs the weekly node step on one slot, if it is filled: the slot stays
   * filled or empty, its node takes one step (the node step of the order
   * module), and the ledger comes back with exactly the orders this slot
   * takes marked delivered this week, every other order as it was.
   */
  function ProcessSlot(slot: Option<Node>, ledger: seq<Order>, week: int): (r: (Option<Node>, seq<Order>))
    ensures SlotStepped(slot, r.0)
    ensures slot.Some? ==> r.0.value == ProcessNodeWeek(slot.value, ledger, week).0
    ensures |r.1| == |ledger|
    ensures forall i :: 0 <= i < |ledger| ==>
      r.1[i] == (if SlotTakes(slot, ledger[i], week) then Deliver(ledger[i], week) else ledger[i])
  {
    match slot
    case None => (None, ledger)
    case Some(n) =>
      var (n', ledger') := ProcessNodeWeek(n, ledger, week);
      (Some(n'), ledger')
  }

  /** The slot holds a node whose role the order is due for this week. */
  predicate SlotTakes(slot: Option<Node>, o: Order, week: int) {
    slot.Some? && IsDue(o, slot.value.role, week)
  }

  /** Some present node of the chain takes delivery of the order this week. */
  predicate ChainTakes(c: Chain, o: Order, week: int) {
    SlotTakes(c.shop, o, week) || SlotTakes(c.retailer, o, week) ||
    SlotTakes(c.wholesaler, o, week) || SlotTakes(c.factory, o, week)
  }

  /** Marking an order delivered keeps its addressee and due week. */
  lemma TakesDelivered(slot: Option<Node>, o: Order, week: int)
    ensures SlotTakes(slot, Deliver(o, week), week) == SlotTakes(slot, o, week)
  {
  }

  /**
   * What one node step guarantees: stock is never negative, a non-negative
   * backorder stays non-negative and cost does not fall, each history grows
   * by one entry, and the node keeps its identity.
   */
  predicate StepKeeps(before: Node, after: Node) {
    && after.inventory >= 0
    && (before.backorder >= 0 ==> after.backorder >= 0 && after.totalCost >= before.totalCost)
    && |after.ordersHistory| == |before.ordersHistory| + 1
    && |after.inventoryHistory| == |before.inventoryHistory| + 1
    && after.role == before.role && after.playerId == before.playerId
  }

  /**
   * `_process_supply_chain_week` once the chain is found: stamps the week,
   * then runs the node step on Shop, Retailer, Wholesaler and Factory in
   * turn, each seeing the ledger as the previous one left it.
   */
  function ProcessChainWeek(c: Chain, ledger: seq<Order>, week: int): (r: (Chain, seq<Order>))
    ensures r.0.chainId == c.chainId && r.0.gameId == c.gameId && r.0.storedCost == c.storedCost
    ensures r.0.currentWeek == week
    ensures r.0.shop.Some? == c.shop.Some? && r.0.retailer.Some? == c.retailer.Some?
    ensures r.0.wholesaler.Some? == c.wholesaler.Some? && r.0.factory.Some? == c.factory.Some?
    ensures |r.1| == |ledger|
  {
    var s := ProcessSlot(c.shop, ledger, week);
    var t := ProcessSlot(c.retailer, s.1, week);
    var u := ProcessSlot(c.wholesaler, t.1, week);
    var v := ProcessSlot(c.factory, u.1, week);
    (c.(currentWeek := week, shop := s.0, retailer := t.0, wholesaler := u.0, factory := v.0), v.1)
  }

  /** A filled slot stays filled, an empty one stays empty, and a node takes one step. */
  predicate SlotStepped(before: Option<Node>, after: Option<Node>) {
    && after.Some? == before.Some?
    && (before.Some? ==> StepKeeps(before.value, after.value))
  }

  /** Each of the chain's four slots has stepped. */
  predicate ChainStepped(before: Chain, after: Chain) {
    && SlotStepped(before.shop, after.shop) && SlotStepped(before.retailer, after.retailer)
    && SlotStepped(before.wholesaler, after.wholesaler) && SlotStepped(before.factory, after.factory)
  }

  /**
   * Every role slot of the chain takes its step: after it, no node holds
   * negative stock, a non-negative backorder stays so, costs do not fall,
   * and each history has grown by one entry.
   */
  lemma ChainWeekNodes(c: Chain, ledger: seq<Order>, week: int)
    ensures ChainStepped(c, ProcessChainWeek(c, ledger, week).0)
  {
  }

  /** A filled slot ends as its node's own step against `ledger`. */
  predicate SlotStepsFrom(before: Option<Node>, after: Option<Node>, ledger: seq<Order>, week: int) {
    before.Some? ==> after.Some? && after.value == ProcessNodeWeek(before.value, ledger, week).0
  }

  /** Each filled slot of the chain ends as its node's own step against `ledger`. */
  predicate NodesStepFrom(before: Chain, after: Chain, ledger: seq<Order>, week: int) {
    && SlotStepsFrom(before.shop, after.shop, ledger, week)
    && SlotStepsFrom(before.retailer, after.retailer, ledger, week)
    && SlotStepsFrom(before.wholesaler, after.wholesaler, ledger, week)
    && SlotStepsFrom(before.factory, after.factory, ledger, week)
  }

  /** A slot's step only marks orders delivered this week. */
  lemma SlotOnlyDelivers(slot: Option<Node>, ledger: seq<Order>, earlier: seq<Order>, week: int)
    requires DeliveredFrom(ledger, earlier, week)
    ensures DeliveredFrom(ProcessSlot(slot, ledger, week).1, earlier, week)
  {
  }

  /**
   * Every present node of the chain ends as its own node step against the
   * ledger the chain step started with, so the order in which the roles are
   * visited does not matter: an earlier role's step only marks orders
   * delivered, and what a later role receives ignores such marks.
   */
  lemma ChainWeekNodeValues(c: Chain, ledger: seq<Order>, week: int)
    ensures NodesStepFrom(c, ProcessChainWeek(c, ledger, week).0, ledger, week)
  {
    var s := ProcessSlot(c.shop, ledger, week);
    var t := ProcessSlot(c.retailer, s.1, week);
    var u := ProcessSlot(c.wholesaler, t.1, week);
    assert DeliveredFrom(ledger, ledger, week);
    SlotOnlyDelivers(c.shop, ledger, ledger, week);
    SlotOnlyDelivers(c.retailer, s.1, ledger, week);
    SlotOnlyDelivers(c.wholesaler, t.1, ledger, week);
    if c.retailer.Some? {
      NodeStepIgnoresDeliveries(c.retailer.value, s.1, ledger, week);
    }
    if c.wholesaler.Some? {
      NodeStepIgnoresDeliveries(c.wholesaler.value, t.1, ledger, week);
    }
    if c.factory.Some? {
      NodeStepIgnoresDeliveries(c.factory.value, u.1, ledger, week);
    }
  }

  /**
   * After a chain's step every order due this week to a role present in the
   * chain is delivered, stamped with this week, exactly once; every other
   * order is untouched.
   */
  lemma ChainWeekDelivers(c: Chain, ledger: seq<Order>, week: int)
    ensures var r := ProcessChainWeek(c, ledger, week).1;
      forall i :: 0 <= i < |ledger| ==>
        r[i] == if ChainTakes(c, ledger[i], week) then Deliver(ledger[i], week) else ledger[i]
  {
    var s := ProcessSlot(c.shop, ledger, week);
    var t := ProcessSlot(c.retailer, s.1, week);
    var u := ProcessSlot(c.wholesaler, t.1, week);
    var v := ProcessSlot(c.factory, u.1, week);
    forall i | 0 <= i < |ledger|
      ensures v.1[i] == if ChainTakes(c, ledger[i], week) then Deliver(ledger[i], week) else ledger[i]
    {
      var o := ledger[i];
      TakesDelivered(c.retailer, o, week);
      TakesDelivered(c.wholesaler, o, week);
      TakesDelivered(c.factory, o, week);
    }
  }

  // ----- advance_week -----

  /**
   * The body of `_process_supply_chain_week` once the key is built: when a
   * chain is registered under `key`, stamps the week on it and runs its
   * weekly step against its ledger (an absent ledger reads as empty);
   * otherwise nothing happens.
   */
  function ProcessChainKey(e: Engine, key: string, week: int): (r: Engine)
    ensures r.games == e.games && r.orderQueue == e.orderQueue
    ensures r.chains.Keys == e.chains.Keys && r.orders.Keys == e.orders.Keys
    ensures key !in e.chains ==> r == e
    ensures key in e.chains ==>
      && r.chains[key].currentWeek == week
      && r.chains[key].chainId == e.chains[key].chainId
      && (forall k :: k in e.chains && k != key ==> r.chains[k] == e.chains[k])
      && (forall k :: k in e.orders && k != e.chains[key].chainId ==> r.orders[k] == e.orders[k])
    ensures key in e.chains && e.chains[key].chainId == key && key in e.orders ==>
      (r.chains[key], r.orders[key]) == ProcessChainWeek(e.chains[key], e.orders[key], week)
  {
    if key !in e.chains then e
    else
      var chain := e.chains[key];
      var ledger := if chain.chainId in e.orders then e.orders[chain.chainId] else [];
      var (chain', ledger') := ProcessChainWeek(chain, ledger, week);
      var orders' := if chain.chainId in e.orders then e.orders[chain.chainId := ledger'] else e.orders;
      e.(chains := e.chains[key := chain'], orders := orders')
  }

  /**
   * `_process_supply_chain_week(game_id, chain_index, week)`: looks up
   * `game_id + "_chain_" + chain_index`; a chain found there, stored under
   * its own id and with a ledger, takes its weekly step against that ledger,
   * and no other chain or ledger changes. A key that names no chain changes
   * nothing.
   */
  function ProcessSupplyChainWeek(e: Engine, gameId: string, chainIndex: string, week: int): (r: Engine)
    ensures r.games == e.games && r.orderQueue == e.orderQueue
    ensures r.chains.Keys == e.chains.Keys && r.orders.Keys == e.orders.Keys
    ensures QualifiedChainId(gameId, "chain_" + chainIndex) !in e.chains ==> r == e
    ensures var key := QualifiedChainId(gameId, "chain_" + chainIndex);
      key in e.chains && e.chains[key].chainId == key && key in e.orders ==>
        && (r.chains[key], r.orders[key]) == ProcessChainWeek(e.chains[key], e.orders[key], week)
        && (forall k :: k in e.chains && k != key ==> r.chains[k] == e.chains[k])
        && (forall k :: k in e.orders && k != key ==> r.orders[k] == e.orders[k])
  {
    ProcessChainKey(e, IndexedChainKey(gameId, chainIndex), week)
  }

  /** Passing the bare index, as the helper expects, reaches chain `i` itself. */
  lemma BareIndexReachesChain(e: Engine, gameId: string, i: nat, week: int)
    ensures ProcessSupplyChainWeek(e, gameId, NatToString(i), week) == ProcessChainKey(e, ChainId(gameId, i), week)
  {
  }

  /** The loop of `advance_week` over the game's chain ids. */
  function ProcessChains(e: Engine, gameId: string, chainIds: seq<string>, week: int): (r: Engine)
    ensures r.games == e.games && r.orderQueue == e.orderQueue
    ensures r.chains.Keys == e.chains.Keys && r.orders.Keys == e.orders.Keys
    ensures (forall i :: 0 <= i < |chainIds| ==> IndexedChainKey(gameId, chainIds[i]) !in e.chains) ==> r == e
    decreases |chainIds|
  {
    if chainIds == [] then e
    else ProcessChains(ProcessSupplyChainWeek(e, gameId, chainIds[0], week), gameId, chainIds[1..], week)
  }

  /**
   * `advance_week`: an unknown game fails with no change; a known game has
   * its week advanced by exactly one (with no limit) and every listed chain
   * handed to the per-chain step.
   */
  function AdvanceWeek(e: Engine, gameId: string): (r: (Engine, bool))
    ensures r.1 <==> gameId in e.games
    ensures !r.1 ==> r.0 == e
    ensures r.1 ==> r.0.games == e.games[gameId := e.games[gameId].(currentWeek := e.games[gameId].currentWeek + 1)]
    ensures r.0.chains.Keys == e.chains.Keys && r.0.orders.Keys == e.orders.Keys
    ensures r.0.orderQueue == e.orderQueue
  {
    if gameId !in e.games then (e, false)
    else
      var game := e.games[gameId];
      var week := game.currentWeek + 1;
      var e' := e.(games := e.games[gameId := game.(currentWeek := week)]);
      (ProcessChains(e', gameId, game.chainIds, week), true)
  }

  /**
   * `advance_week` passes the FULL chain id where the per-chain step expects
   * an index, so the step looks up `game_id + "_chain_" + game_id + "_chain_" + i`,
   * which is never registered: no chain, node or order changes.
   */
  lemma AdvanceWeekReachesNoChain(e: Engine, gameId: string)
    requires WellFormed(e)
    ensures var e' := AdvanceWeek(e, gameId).0;
      e'.chains == e.chains && e'.orders == e.orders
  {
    if gameId in e.games {
      var game := e.games[gameId];
      var e1 := e.(games := e.games[gameId := game.(currentWeek := game.currentWeek + 1)]);
      forall i | 0 <= i < |game.chainIds|
        ensures IndexedChainKey(gameId, game.chainIds[i]) !in e1.chains
      {
        DoubledKeyIsNoChainKey(gameId, game.chainIds[i]);
      }
    }
  }

  lemma AdvanceWeekPreservesInvariants(e: Engine, gameId: string)
    requires WellFormed(e) && ChainWeeksZero(e)
    ensures var e' := AdvanceWeek(e, gameId).0;
      WellFormed(e') && ChainWeeksZero(e')
  {
    AdvanceWeekReachesNoChain(e, gameId);
  }

  /** The evidently intended loop of `advance_week`: each listed chain is looked up by its own id. */
  function ProcessListedChains(e: Engine, chainIds: seq<string>, week: int): (r: Engine)
    ensures r.games == e.games && r.orderQueue == e.orderQueue
    ensures r.chains.Keys == e.chains.Keys && r.orders.Keys == e.orders.Keys
    decreases |chainIds|
  {
    if chainIds == [] then e
    else ProcessListedChains(ProcessChainKey(e, chainIds[0], week), chainIds[1..], week)
  }

  /**
   * The listed-chain loop stamps the week on every listed registered chain
   * and leaves every unlisted chain as it was.
   */
  lemma {:induction false} ProcessListedChainsSteps(e: Engine, chainIds: seq<string>, week: int)
    ensures var r := ProcessListedChains(e, chainIds, week);
      && (forall k :: k in chainIds && k in e.chains ==> r.chains[k].currentWeek == week)
      && (forall k :: k in e.chains && k !in chainIds ==> r.chains[k] == e.chains[k])
    decreases |chainIds|
  {
    if chainIds != [] {
      var e1 := ProcessChainKey(e, chainIds[0], week);
      var rest := chainIds[1..];
      ProcessListedChainsSteps(e1, rest, week);
      assert forall k :: k in chainIds <==> k == chainIds[0] || k in rest;
    }
  }

  /**
   * `advance_week` as evidently intended: the game's week advances by one
   * and each chain the game lists is handed to the per-chain step by its id.
   */
  function AdvanceWeekIntended(e: Engine, gameId: string): (r: (Engine, bool))
    ensures r.1 <==> gameId in e.games
    ensures !r.1 ==> r.0 == e
    ensures r.1 ==> r.0.games == e.games[gameId := e.games[gameId].(currentWeek := e.games[gameId].currentWeek + 1)]
    ensures r.0.chains.Keys == e.chains.Keys && r.0.orders.Keys == e.orders.Keys
    ensures r.0.orderQueue == e.orderQueue
  {
    if gameId !in e.games then (e, false)
    else
      var game := e.games[gameId];
      var week := game.currentWeek + 1;
      var e' := e.(games := e.games[gameId := game.(currentWeek := week)]);
      (ProcessListedChains(e', game.chainIds, week), true)
  }

  /**
   * With the intended loop, every chain the game lists that is registered
   * reaches the game's new week, and unlisted chains are untouched.
   */
  lemma AdvanceWeekIntendedSteps(e: Engine, gameId: string)
    requires gameId in e.games
    ensures var e' := AdvanceWeekIntended(e, gameId).0;
      var game := e.games[gameId];
      && (forall k :: k in game.chainIds && k in e.chains ==> e'.chains[k].currentWeek == game.currentWeek + 1)
      && (forall k :: k in e.chains && k !in game.chainIds ==> e'.chains[k] == e.chains[k])
  {
    var game := e.games[gameId];
    var week := game.currentWeek + 1;
    var e1 := e.(games := e.games[gameId := game.(currentWeek := week)]);
    ProcessListedChainsSteps(e1, game.chainIds, week);
  }

  /**
   * From `chains`/`orders` to `chains'`/`orders'`, each listed id names a
   * chain that, with its ledger, has become exactly the result of its weekly
   * step; every unlisted chain and ledger is as it was.
   */
  ghost predicate StepsListed(chains: map<string, Chain>, orders: map<string, seq<Order>>,
                              chains': map<string, Chain>, orders': map<string, seq<Order>>, ids: seq<string>, week: int) {
    && (forall i :: 0 <= i < |ids| ==>
          && ids[i] in chains && ids[i] in orders && ids[i] in chains' && ids[i] in orders'
          && (chains'[ids[i]], orders'[ids[i]]) == ProcessChainWeek(chains[ids[i]], orders[ids[i]], week))
    && (forall k :: k in chains && k !in ids ==>
          && k in orders && k in chains' && k in orders'
          && chains'[k] == chains[k] && orders'[k] == orders[k])
  }

  /** Every chain is stored under its own id and has a ledger. */
  ghost predicate SelfKeyed(e: Engine) {
    && (forall k :: k in e.chains ==> e.chains[k].chainId == k)
    && e.orders.Keys == e.chains.Keys
  }

  /**
   * Over a list of distinct registered ids, the listed-chain loop gives each
   * listed chain and its ledger exactly the result of that chain's weekly
   * step, and leaves every unlisted chain and ledger as it was.
   */
  lemma {:induction false} ProcessListedChainsEach(e: Engine, ids: seq<string>, week: int)
    requires SelfKeyed(e)
    requires forall i :: 0 <= i < |ids| ==> ids[i] in e.chains
    requires forall a, b :: 0 <= a < b < |ids| ==> ids[a] != ids[b]
    ensures var r := ProcessListedChains(e, ids, week);
      StepsListed(e.chains, e.orders, r.chains, r.orders, ids, week)
    decreases |ids|
  {
    if ids != [] {
      var e1 := ProcessChainKey(e, ids[0], week);
      var rest := ids[1..];
      assert SelfKeyed(e1);
      ProcessListedChainsEach(e1, rest, week);
      var r := ProcessListedChains(e1, rest, week);
      assert ids[0] !in rest;
      forall i | 0 <= i < |ids|
        ensures ids[i] in r.chains && ids[i] in r.orders
        ensures (r.chains[ids[i]], r.orders[ids[i]]) == ProcessChainWeek(e.chains[ids[i]], e.orders[ids[i]], week)
      {
        if i > 0 {
          assert rest[i - 1] == ids[i] && ids[i] != ids[0];
        }
      }
      assert forall k :: k in ids <==> k == ids[0] || k in rest;
    }
  }

  /**
   * In a well-formed registry, with the intended loop, each chain the game
   * lists is registered and, with its ledger, becomes exactly the result of
   * its weekly step at the game's new week; unlisted chains and their
   * ledgers are untouched.
   */
  lemma AdvanceWeekIntendedStepsEveryChain(e: Engine, gameId: string)
    requires WellFormed(e) && gameId in e.games
    ensures var e' := AdvanceWeekIntended(e, gameId).0;
      StepsListed(e.chains, e.orders, e'.chains, e'.orders, e.games[gameId].chainIds, e.games[gameId].currentWeek + 1)
  {
    ListedChainsRegistered(e, gameId);
    IntendedStepsVia(e, gameId, e.games[gameId].chainIds, e.games[gameId].currentWeek + 1);
  }

  /** The intended loop over a game's chain list, given as `ids`, that is distinct and registered. */
  lemma IntendedStepsVia(e: Engine, gameId: string, ids: seq<string>, week: int)
    requires gameId in e.games && ids == e.games[gameId].chainIds && week == e.games[gameId].currentWeek + 1
    requires forall k :: k in e.chains ==> e.chains[k].chainId == k
    requires e.orders.Keys == e.chains.Keys
    requires forall i :: 0 <= i < |ids| ==> ids[i] in e.chains
    requires forall a, b :: 0 <= a < b < |ids| ==> ids[a] != ids[b]
    ensures var e' := AdvanceWeekIntended(e, gameId).0;
      StepsListed(e.chains, e.orders, e'.chains, e'.orders, ids, week)
  {
    var game := e.games[gameId];
    var e1 := e.(games := e.games[gameId := game.(currentWeek := week)]);
    IntendedIsListedLoop(e, gameId);
    StepsAfterBump(e, e1.games, ids, week);
  }

  /** In a well-formed registry a game's chain list is distinct and registered, and chains keep their ids. */
  lemma ListedChainsRegistered(e: Engine, gameId: string)
    requires WellFormed(e) && gameId in e.games
    ensures forall k :: k in e.chains ==> e.chains[k].chainId == k
    ensures e.orders.Keys == e.chains.Keys
    ensures forall i :: 0 <= i < |e.games[gameId].chainIds| ==> e.games[gameId].chainIds[i] in e.chains
    ensures forall a, b :: 0 <= a < b < |e.games[gameId].chainIds| ==>
      e.games[gameId].chainIds[a] != e.games[gameId].chainIds[b]
  {
  }

  /** The listed-chain loop after a change to the game map only, over distinct registered ids. */
  lemma StepsAfterBump(e: Engine, games: map<string, Game>, ids: seq<string>, week: int)
    requires forall k :: k in e.chains ==> e.chains[k].chainId == k
    requires e.orders.Keys == e.chains.Keys
    requires forall i :: 0 <= i < |ids| ==> ids[i] in e.chains
    requires forall a, b :: 0 <= a < b < |ids| ==> ids[a] != ids[b]
    ensures var r := ProcessListedChains(e.(games := games), ids, week);
      StepsListed(e.chains, e.orders, r.chains, r.orders, ids, week)
  {
    var e1 := e.(games := games);
    assert SelfKeyed(e1);
    ProcessListedChainsEach(e1, ids, week);
  }

  /** The intended `advance_week` on a known game is the listed-chain loop after the week bump. */
  lemma IntendedIsListedLoop(e: Engine, gameId: string)
    requires gameId in e.games
    ensures var game := e.games[gameId];
      var e1 := e.(games := e.games[gameId := game.(currentWeek := game.currentWeek + 1)]);
      AdvanceWeekIntended(e, gameId).0 == ProcessListedChains(e1, game.chainIds, game.currentWeek + 1)
  {
  }

  /**
   * With the intended loop, after the week every chain the game lists has
   * all its present nodes stepped (no negative stock, costs that do not
   * fall, histories one entry longer), each exactly as its own node step
   * against the ledger the week started with, and exactly the orders due
   * this week to a present role marked delivered this week.
   */
  lemma AdvanceWeekIntendedDelivers(e: Engine, gameId: string)
    requires WellFormed(e) && gameId in e.games
    ensures var e' := AdvanceWeekIntended(e, gameId).0;
      var ids := e.games[gameId].chainIds;
      var week := e.games[gameId].currentWeek + 1;
      forall i :: 0 <= i < |ids| ==>
        && ids[i] in e.chains && ids[i] in e.orders
        && ChainStepped(e.chains[ids[i]], e'.chains[ids[i]])
        && NodesStepFrom(e.chains[ids[i]], e'.chains[ids[i]], e.orders[ids[i]], week)
        && |e'.orders[ids[i]]| == |e.orders[ids[i]]|
        && (forall j :: 0 <= j < |e.orders[ids[i]]| ==>
              e'.orders[ids[i]][j] == if ChainTakes(e.chains[ids[i]], e.orders[ids[i]][j], week)
                                      then Deliver(e.orders[ids[i]][j], week) else e.orders[ids[i]][j])
  {
    var e' := AdvanceWeekIntended(e, gameId).0;
    AdvanceWeekIntendedStepsEveryChain(e, gameId);
    ListedStepsDeliver(e.chains, e.orders, e'.chains, e'.orders, e.games[gameId].chainIds, e.games[gameId].currentWeek + 1);
  }

  /** What each listed chain's weekly step means, for maps related by `StepsListed`. */
  lemma ListedStepsDeliver(chains: map<string, Chain>, orders: map<string, seq<Order>>,
                           chains': map<string, Chain>, orders': map<string, seq<Order>>, ids: seq<string>, week: int)
    requires StepsListed(chains, orders, chains', orders', ids, week)
    ensures forall i :: 0 <= i < |ids| ==>
      && ids[i] in chains && ids[i] in orders
      && ChainStepped(chains[ids[i]], chains'[ids[i]])
      && NodesStepFrom(chains[ids[i]], chains'[ids[i]], orders[ids[i]], week)
      && |orders'[ids[i]]| == |orders[ids[i]]|
      && (forall j :: 0 <= j < |orders[ids[i]]| ==>
            orders'[ids[i]][j] == if ChainTakes(chains[ids[i]], orders[ids[i]][j], week)
                                  then Deliver(orders[ids[i]][j], week) else orders[ids[i]][j])
  {
    forall i | 0 <= i < |ids|
      ensures ChainStepped(chains[ids[i]], chains'[ids[i]])
      ensures NodesStepFrom(chains[ids[i]], chains'[ids[i]], orders[ids[i]], week)
      ensures forall j :: 0 <= j < |orders[ids[i]]| ==>
        orders'[ids[i]][j] == if ChainTakes(chains[ids[i]], orders[ids[i]][j], week)
                              then Deliver(orders[ids[i]][j], week) else orders[ids[i]][j]
    {
      ChainWeekNodes(chains[ids[i]], orders[ids[i]], week);
      ChainWeekNodeValues(chains[ids[i]], orders[ids[i]], week);
      ChainWeekDelivers(chains[ids[i]], orders[ids[i]], week);
    }
  }

  // ----- the statuses the engine assigns -----

  /**
   * `create_game` adds only empty ledgers, so the engine still holds no
   * order with a status other than pending or delivered.
   */
  lemma CreateGameKeepsStatuses(e: Engine, token: Token, numChains: int, weeks: int, demandPattern: string)
    requires OnlyPendingOrDelivered(e)
    ensures OnlyPendingOrDelivered(CreateGame(e, token, numChains, weeks, demandPattern).0)
  {
  }

  lemma JoinGameKeepsStatuses(e: Engine, gameId: string, selector: string, role: string, playerName: string, token: Token)
    requires OnlyPendingOrDelivered(e)
    ensures OnlyPendingOrDelivered(JoinGame(e, gameId, selector, role, playerName, token).0)
  {
  }

  lemma PlaceCustomerOrderKeepsStatuses(e: Engine, gameId: string, selector: string, week: int, quantity: int)
    requires OnlyPendingOrDelivered(e)
    ensures OnlyPendingOrDelivered(PlaceCustomerOrder(e, gameId, selector, week, quantity).0)
  {
  }

  /** `process_order` appends one order, and it is pending. */
  lemma ProcessOrderKeepsStatuses(e: Engine, gameId: string, selector: string, fromRole: string, toRole: string,
                                  quantity: int, token: Token)
    requires OnlyPendingOrDelivered(e)
    ensures OnlyPendingOrDelivered(ProcessOrder(e, gameId, selector, fromRole, toRole, quantity, token).0)
  {
  }

  /** A chain's weekly step only ever marks orders delivered. */
  lemma ChainWeekKeepsStatuses(c: Chain, ledger: seq<Order>, week: int)
    requires LedgerPendingOrDelivered(ledger)
    ensures LedgerPendingOrDelivered(ProcessChainWeek(c, ledger, week).1)
  {
    ChainWeekDelivers(c, ledger, week);
  }

  lemma ChainKeyKeepsStatuses(e: Engine, key: string, week: int)
    requires OnlyPendingOrDelivered(e)
    ensures OnlyPendingOrDelivered(ProcessChainKey(e, key, week))
  {
    if key in e.chains {
      var chain := e.chains[key];
      var ledger := if chain.chainId in e.orders then e.orders[chain.chainId] else [];
      ChainWeekKeepsStatuses(chain, ledger, week);
    }
  }

  lemma {:induction false} ProcessChainsKeepStatuses(e: Engine, gameId: string, chainIds: seq<string>, week: int)
    requires OnlyPendingOrDelivered(e)
    ensures OnlyPendingOrDelivered(ProcessChains(e, gameId, chainIds, week))
    decreases |chainIds|
  {
    if chainIds != [] {
      ChainKeyKeepsStatuses(e, IndexedChainKey(gameId, chainIds[0]), week);
      ProcessChainsKeepStatuses(ProcessSupplyChainWeek(e, gameId, chainIds[0], week), gameId, chainIds[1..], week);
    }
  }

  lemma {:induction false} ListedChainsKeepStatuses(e: Engine, chainIds: seq<string>, week: int)
    requires OnlyPendingOrDelivered(e)
    ensures OnlyPendingOrDelivered(ProcessListedChains(e, chainIds, week))
    decreases |chainIds|
  {
    if chainIds != [] {
      ChainKeyKeepsStatuses(e, chainIds[0], week);
      ListedChainsKeepStatuses(ProcessChainKey(e, chainIds[0], week), chainIds[1..], week);
    }
  }

  /** `advance_week`, as written, sets no status but pending or delivered. */
  lemma AdvanceWeekKeepsStatuses(e: Engine, gameId: string)
    requires OnlyPendingOrDelivered(e)
    ensures OnlyPendingOrDelivered(AdvanceWeek(e, gameId).0)
  {
    if gameId in e.games {
      var game := e.games[gameId];
      var week := game.currentWeek + 1;
      ProcessChainsKeepStatuses(e.(games := e.games[gameId := game.(currentWeek := week)]), gameId, game.chainIds, week);
    }
  }

  /** Nor does the intended `advance_week`, which does deliver orders. */
  lemma AdvanceWeekIntendedKeepsStatuses(e: Engine, gameId: string)
    requires OnlyPendingOrDelivered(e)
    ensures OnlyPendingOrDelivered(AdvanceWeekIntended(e, gameId).0)
  {
    if gameId in e.games {
      var game := e.games[gameId];
      var week := game.currentWeek + 1;
      ListedChainsKeepStatuses(e.(games := e.games[gameId := game.(currentWeek := week)]), game.chainIds, week);
    }
  }

  // ----- get_game_state -----

  /** The dictionary `get_game_state` returns. */
  datatype GameView = GameView(
    gameId: string,
    status: GameStatus,
    currentWeek: int,
    weeks: int,
    demandPattern: string,
    chains: seq<ChainView>)

  /**
   * `get_game_state`: the game's fields and the view of each listed chain in
   * list order; `GameNotFound` for an unknown game, `ChainNotFound` for a
   * listed chain that is not registered.
   */
  function GetGameState(e: Engine, gameId: string): (r: Result<GameView, EngineError>)
    ensures gameId !in e.games ==> r == Failure(GameNotFound)
    ensures r.Success? ==>
      var game := e.games[gameId];
      && gameId in e.games
      && r.value.gameId == game.gameId && r.value.status == game.status
      && r.value.currentWeek == game.currentWeek && r.value.weeks == game.weeks
      && r.value.demandPattern == game.demandPattern
      && |r.value.chains| == |game.chainIds|
      && forall i :: 0 <= i < |game.chainIds| ==>
           game.chainIds[i] in e.chains && r.value.chains[i] == ViewChain(e.chains[game.chainIds[i]])
    ensures gameId in e.games && (forall i :: 0 <= i < |e.games[gameId].chainIds| ==> e.games[gameId].chainIds[i] in e.chains)
      ==> r.Success?
  {
    if gameId !in e.games then Failure(GameNotFound)
    else
      var game := e.games[gameId];
      if exists i :: 0 <= i < |game.chainIds| && game.chainIds[i] !in e.chains then Failure(ChainNotFound)
      else
        Success(GameView(game.gameId, game.status, game.currentWeek, game.weeks, game.demandPattern,
          seq(|game.chainIds|, i requires 0 <= i < |game.chainIds| => ViewChain(e.chains[game.chainIds[i]]))))
  }

  /** For a well-formed registry, every known game has a state view. */
  lemma GetGameStateOfKnownGame(e: Engine, gameId: string)
    requires WellFormed(e) && gameId in e.games
    ensures GetGameState(e, gameId).Success?
  {
  }
}

=== FILE: factory.dfy ===
/** The machine grid of `backend/models/factory.py`. */
module Factories {

  /** `Machine`, keeping the fields that take part in placement. */
  datatype Machine = Machine(
    machineId: string,
    machineType: string,
    x: int,
    y: int,
    width: int,
    height: int,
    rotation: int,
    isActive: bool)

  /** A machine built with the dataclass defaults: a 1x1 footprint, unrotated and active. */
  function NewMachine(machineId: string, machineType: string, x: int, y: int): (m: Machine)
    ensures m.machineId == machineId && m.machineType == machineType && m.x == x && m.y == y
    ensures m.width == 1 && m.height == 1 && m.rotation == 0 && m.isActive
  {
    Machine(machineId, machineType, x, y, 1, 1, 0, true)
  }

  /** `Factory`: a grid of the given size and the machines placed on it, keyed by id. */
  datatype Factory = Factory(
    factoryId: string,
    playerId: string,
    gameId: string,
    width: int,
    height: int,
    machines: map<string, Machine>,
    currentWeek: int)

  /** A factory built with the dataclass defaults: an empty 100x100 grid. */
  function NewFactory(factoryId: string, playerId: string, gameId: string): (f: Factory)
    ensures f.width == 100 && f.height == 100 && f.machines == map[] && f.currentWeek == 0
    ensures Valid(f)
  {
    Factory(factoryId, playerId, gameId, 100, 100, map[], 0)
  }

  /** Grid cell `(cx, cy)` lies in the rectangle at `(x, y)` of the given size. */
  predicate Covers(x: int, y: int, w: int, h: int, cx: int, cy: int) {
    x <= cx < x + w && y <= cy < y + h
  }

  /**
   * `Factory._check_overlap`: two rectangles overlap unless one lies
   * entirely to one side of the other. For rectangles of positive size this
   * means they share at least one grid cell.
   */
  function CheckOverlap(x1: int, y1: int, w1: int, h1: int, x2: int, y2: int, w2: int, h2: int): (overlap: bool)
    ensures w1 > 0 && h1 > 0 && w2 > 0 && h2 > 0 ==>
      (overlap <==> exists cx, cy :: Covers(x1, y1, w1, h1, cx, cy) && Covers(x2, y2, w2, h2, cx, cy))
  {
    var overlap := !(x1 + w1 <= x2 || x2 + w2 <= x1 || y1 + h1 <= y2 || y2 + h2 <= y1);
    var cx := if x1 <= x2 then x2 else x1;
    var cy := if y1 <= y2 then y2 else y1;
    assert overlap && w1 > 0 && h1 > 0 && w2 > 0 && h2 > 0 ==>
      Covers(x1, y1, w1, h1, cx, cy) && Covers(x2, y2, w2, h2, cx, cy);
    overlap
  }

  /** Overlap does not depend on the order of the two rectangles. */
  lemma OverlapSymmetric(x1: int, y1: int, w1: int, h1: int, x2: int, y2: int, w2: int, h2: int)
    ensures CheckOverlap(x1, y1, w1, h1, x2, y2, w2, h2) == CheckOverlap(x2, y2, w2, h2, x1, y1, w1, h1)
  {
  }

  /** Rectangles that only share an edge do not overlap. */
  lemma SharedEdgeIsNoOverlap(x1: int, y1: int, w1: int, h1: int, x2: int, y2: int, w2: int, h2: int)
    requires x1 + w1 == x2 || x2 + w2 == x1 || y1 + h1 == y2 || y2 + h2 == y1
    ensures !CheckOverlap(x1, y1, w1, h1, x2, y2, w2, h2)
  {
  }

  /** The rectangle lies on the factory's grid. */
  predicate InBounds(f: Factory, x: int, y: int, w: int, h: int) {
    !(x < 0 || y < 0 || x + w > f.width || y + h > f.height)
  }

  /** The rectangle overlaps machine `m`. */
  predicate OverlapsMachine(x: int, y: int, w: int, h: int, m: Machine) {
    CheckOverlap(x, y, w, h, m.x, m.y, m.width, m.height)
  }

  /**
   * `Factory._is_position_valid`: on the grid and clear of every machine
   * already placed.
   */
  function IsPositionValid(f: Factory, x: int, y: int, w: int, h: int): (ok: bool)
    ensures x < 0 || y < 0 || x + w > f.width || y + h > f.height ==> !ok
    ensures ok ==> forall id :: id in f.machines ==> !OverlapsMachine(x, y, w, h, f.machines[id])
    ensures InBounds(f, x, y, w, h) && (forall id :: id in f.machines ==> !OverlapsMachine(x, y, w, h, f.machines[id])) ==> ok
  {
    InBounds(f, x, y, w, h) && forall id | id in f.machines :: !OverlapsMachine(x, y, w, h, f.machines[id])
  }

  /** Placement invariant: each machine is stored under its id, lies on the grid, and no two overlap. */
  ghost predicate Valid(f: Factory) {
    && (forall id :: id in f.machines ==> f.machines[id].machineId == id)
    && (forall id :: id in f.machines ==>
          InBounds(f, f.machines[id].x, f.machines[id].y, f.machines[id].width, f.machines[id].height))
    && (forall a, b :: a in f.machines && b in f.machines && a != b ==>
          !OverlapsMachine(f.machines[a].x, f.machines[a].y, f.machines[a].width, f.machines[a].height, f.machines[b]))
  }

  /**
   * `Factory.add_machine`: stores the machine under its id and succeeds
   * exactly when its placement is valid; otherwise nothing changes.
   */
  function AddMachine(f: Factory, m: Machine): (r: (Factory, bool))
    ensures r.1 <==> IsPositionValid(f, m.x, m.y, m.width, m.height)
    ensures r.1 ==> r.0.machines.Keys == f.machines.Keys + {m.machineId} && r.0.machines[m.machineId] == m
    ensures r.1 ==> forall id :: id in f.machines && id != m.machineId ==> r.0.machines[id] == f.machines[id]
    ensures !r.1 ==> r.0 == f
    ensures r.0 == f.(machines := r.0.machines)
  {
    if IsPositionValid(f, m.x, m.y, m.width, m.height) then
      (f.(machines := f.machines[m.machineId := m]), true)
    else
      (f, false)
  }

  /** `Factory.remove_machine`: deletes the machine and succeeds exactly when its id is present. */
  function RemoveMachine(f: Factory, id: string): (r: (Factory, bool))
    ensures r.1 <==> id in f.machines
    ensures r.0.machines.Keys == f.machines.Keys - {id}
    ensures forall k :: k in r.0.machines ==> r.0.machines[k] == f.machines[k]
    ensures r.0 == f.(machines := r.0.machines)
  {
    if id in f.machines then (f.(machines := f.machines - {id}), true) else (f, false)
  }

  /** Adding a machine keeps the placement invariant. */
  lemma AddMachinePreservesValid(f: Factory, m: Machine)
    requires Valid(f)
    ensures Valid(AddMachine(f, m).0)
  {
    var (g, ok) := AddMachine(f, m);
    if ok {
      forall a, b | a in g.machines && b in g.machines && a != b
        ensures !OverlapsMachine(g.machines[a].x, g.machines[a].y, g.machines[a].width, g.machines[a].height, g.machines[b])
      {
        var ma, mb := g.machines[a], g.machines[b];
        if a == m.machineId {
          assert b in f.machines;
        } else if b == m.machineId {
          assert a in f.machines;
          OverlapSymmetric(m.x, m.y, m.width, m.height, ma.x, ma.y, ma.width, ma.height);
        }
      }
    }
  }

  /** Removing a machine keeps the placement invariant. */
  lemma RemoveMachinePreservesValid(f: Factory, id: string)
    requires Valid(f)
    ensures Valid(RemoveMachine(f, id).0)
  {
  }

  /**
   * Re-adding a machine under an id already present fails whenever the new
   * footprint overlaps the one already stored under that id.
   */
  lemma ReAddOverlappingSelfFails(f: Factory, m: Machine)
    requires m.machineId in f.machines
    requires OverlapsMachine(m.x, m.y, m.width, m.height, f.machines[m.machineId])
    ensures !AddMachine(f, m).1
  {
  }

  /** Adding and then removing a new machine leaves the machines as they were. */
  lemma AddThenRemove(f: Factory, m: Machine)
    requires m.machineId !in f.machines
    requires AddMachine(f, m).1
    ensures RemoveMachine(AddMachine(f, m).0, m.machineId) == (f, true)
  {
    var g := AddMachine(f, m).0;
    assert g.machines - {m.machineId} == f.machines;
  }
}

=== FILE: inventory.dfy ===
/** The per-player item store of `backend/models/inventory.py`. */
module Inventories {
  import Utils

  /** `InventoryItem`. */
  datatype Item = Item(itemId: string, name: string, quantity: int, maxQuantity: int, unitHoldingCost: real)

  /** An item built with the dataclass defaults: empty, capacity 10000, holding cost 0.5. */
  function NewItem(itemId: string, name: string): (item: Item)
    ensures item.itemId == itemId && item.name == name
    ensures item.quantity == 0 && item.maxQuantity == 10000 && item.unitHoldingCost == 0.5
  {
    Item(itemId, name, 0, 10000, 0.5)
  }

  /** `Inventory`: items keyed by id. */
  datatype Inventory = Inventory(playerId: string, items: map<string, Item>)

  /** Every item is stored under its own id. */
  predicate KeyedById(inv: Inventory) {
    forall k :: k in inv.items ==> inv.items[k].itemId == k
  }

  /** Every item has a non-negative capacity and holds no more than it. */
  predicate WithinCapacity(inv: Inventory) {
    forall k :: k in inv.items ==> 0 <= inv.items[k].maxQuantity && inv.items[k].quantity <= inv.items[k].maxQuantity
  }

  /** Every item other than `id` is the same in both inventories, and so is the owner. */
  ghost predicate OthersUnchanged(before: Inventory, after: Inventory, id: string) {
    && after.playerId == before.playerId
    && (forall k :: k != id ==> (k in after.items <==> k in before.items))
    && (forall k :: k != id && k in before.items ==> after.items[k] == before.items[k])
  }

  /** `Inventory.add_item`: inserts or replaces the entry at the item's own id. */
  function AddItem(inv: Inventory, item: Item): (r: Inventory)
    ensures item.itemId in r.items && r.items[item.itemId] == item
    ensures OthersUnchanged(inv, r, item.itemId)
    ensures KeyedById(inv) ==> KeyedById(r)
    ensures WithinCapacity(inv) && 0 <= item.maxQuantity && item.quantity <= item.maxQuantity ==> WithinCapacity(r)
  {
    inv.(items := inv.items[item.itemId := item])
  }

  /**
   * `Inventory.get_item`: the stored item, or a fresh default item named
   * after the id, which is inserted as a side effect.
   */
  function GetItem(inv: Inventory, id: string): (r: (Inventory, Item))
    ensures id in r.0.items && r.0.items[id] == r.1
    ensures id in inv.items ==> r.0 == inv
    ensures id !in inv.items ==> r.1 == NewItem(id, id)
    ensures r.0.items.Keys == inv.items.Keys + {id}
    ensures OthersUnchanged(inv, r.0, id)
    ensures KeyedById(inv) ==> KeyedById(r.0)
    ensures WithinCapacity(inv) ==> WithinCapacity(r.0)
  {
    if id in inv.items then (inv, inv.items[id])
    else
      var item := NewItem(id, id);
      (inv.(items := inv.items[id := item]), item)
  }

  /** `Inventory.get_quantity`: 0 for an unknown id, which it then registers. */
  function GetQuantity(inv: Inventory, id: string): (r: (Inventory, int))
    ensures id in inv.items ==> r.0 == inv && r.1 == inv.items[id].quantity
    ensures id !in inv.items ==> r.1 == 0 && id in r.0.items
    ensures r.0 == GetItem(inv, id).0
  {
    var (inv', item) := GetItem(inv, id);
    (inv', item.quantity)
  }

  /**
   * `Inventory.add_quantity`: commits the new quantity and reports success
   * exactly when it stays within the item's capacity. On refusal the
   * quantity is untouched, though an unknown id has still been registered.
   */
  function AddQuantity(inv: Inventory, id: string, quantity: int): (r: (Inventory, bool))
    ensures var (seen, item) := GetItem(inv, id);
      && (r.1 <==> item.quantity + quantity <= item.maxQuantity)
      && (r.1 ==> id in r.0.items && r.0.items[id] == item.(quantity := item.quantity + quantity))
      && (!r.1 ==> r.0 == seen)
    ensures OthersUnchanged(inv, r.0, id)
    ensures KeyedById(inv) ==> KeyedById(r.0)
    ensures WithinCapacity(inv) ==> WithinCapacity(r.0)
  {
    var (inv', item) := GetItem(inv, id);
    var newQuantity := item.quantity + quantity;
    if newQuantity <= item.maxQuantity then
      (inv'.(items := inv'.items[id := item.(quantity := newQuantity)]), true)
    else
      (inv', false)
  }

  /**
   * `Inventory.remove_quantity`: removes as much as is asked for but no
   * more than is held, and returns the amount removed.
   */
  function RemoveQuantity(inv: Inventory, id: string, quantity: int): (r: (Inventory, int))
    ensures var (_, item) := GetItem(inv, id);
      && r.1 <= item.quantity && r.1 <= quantity
      && (r.1 == item.quantity || r.1 == quantity)
      && id in r.0.items && r.0.items[id] == item.(quantity := item.quantity - r.1)
      && (item.quantity >= 0 && quantity >= 0 ==> r.1 >= 0 && r.0.items[id].quantity >= 0)
    ensures OthersUnchanged(inv, r.0, id)
    ensures KeyedById(inv) ==> KeyedById(r.0)
    ensures WithinCapacity(inv) && quantity >= 0 ==> WithinCapacity(r.0)
  {
    var (inv', item) := GetItem(inv, id);
    var removed := if item.quantity <= quantity then item.quantity else quantity;
    (inv'.(items := inv'.items[id := item.(quantity := item.quantity - removed)]), removed)
  }

  /** Removing what was just added, from a non-negative stock, restores the stock. */
  lemma AddThenRemove(inv: Inventory, id: string, quantity: int)
    requires GetQuantity(inv, id).1 >= 0
    requires AddQuantity(inv, id, quantity).1
    ensures RemoveQuantity(AddQuantity(inv, id, quantity).0, id, quantity) == (GetItem(inv, id).0, quantity)
  {
    var seen := GetItem(inv, id).0;
    var added := AddQuantity(inv, id, quantity).0;
    var back := RemoveQuantity(added, id, quantity).0;
    assert back.items == seen.items;
  }

  /** One item's weekly holding cost: `max(0, quantity) * unit_holding_cost`. */
  function HoldingCost(item: Item): real {
    Utils.InventoryCost(item.quantity, item.unitHoldingCost)
  }

  /** The holding cost of every item in a map, summed in an arbitrary order. */
  ghost function CostSum(items: map<string, Item>): real
    decreases |items|
  {
    if items == map[] then 0.0
    else
      var k :| k in items;
      assert |items - {k}| < |items| by {
        assert items.Keys - {k} < items.Keys;
      }
      HoldingCost(items[k]) + CostSum(items - {k})
  }

  /** The sum does not depend on which item is taken out first. */
  lemma {:induction false} CostSumRemove(items: map<string, Item>, k: string)
    requires k in items
    ensures CostSum(items) == HoldingCost(items[k]) + CostSum(items - {k})
    decreases |items|
  {
    var j :| j in items && CostSum(items) == HoldingCost(items[j]) + CostSum(items - {j});
    if j != k {
      assert |items - {j}| < |items| by {
        assert (items - {j}).Keys < items.Keys;
      }
      assert |items - {k}| < |items| by {
        assert (items - {k}).Keys < items.Keys;
      }
      CostSumRemove(items - {j}, k);
      CostSumRemove(items - {k}, j);
      assert items - {j} - {k} == items - {k} - {j};
    }
  }

  /** With non-negative unit costs the total is non-negative. */
  lemma {:induction false} CostSumNonNegative(items: map<string, Item>)
    requires forall k :: k in items ==> items[k].unitHoldingCost >= 0.0
    ensures CostSum(items) >= 0.0
    decreases |items|
  {
    if items != map[] {
      var k :| k in items;
      CostSumRemove(items, k);
      assert |items - {k}| < |items| by {
        assert (items - {k}).Keys < items.Keys;
      }
      CostSumNonNegative(items - {k});
    }
  }

  /** `Inventory.get_total_cost`: the holding cost of every item, accumulated one item at a time. */
  method GetTotalCost(inv: Inventory) returns (total: real)
    ensures total == CostSum(inv.items)
    ensures (forall k :: k in inv.items ==> inv.items[k].unitHoldingCost >= 0.0) ==> total >= 0.0
  {
    total := 0.0;
    var rest := inv.items;
    while rest != map[]
      invariant total + CostSum(rest) == CostSum(inv.items)
      decreases |rest|
    {
      var k :| k in rest;
      CostSumRemove(rest, k);
      total := total + HoldingCost(rest[k]);
      assert |rest - {k}| < |rest| by {
        assert (rest - {k}).Keys < rest.Keys;
      }
      rest := rest - {k};
    }
    if forall k :: k in inv.items ==> inv.items[k].unitHoldingCost >= 0.0 {
      CostSumNonNegative(inv.items);
    }
  }
}

=== FILE: node_week.dfy ===
/**
 * The weekly per-node algorithm of `BeerGameEngine` in
 * `backend/core/game_engine.py`: `_get_incoming_orders` matches the
 * chain's order ledger against a role and week, and `_process_node_week`
 * receives the arrivals, serves demand, and books backorder, cost and
 * history.
 */
module NodeWeek {
  import opened Wrappers
  import opened Config
  import opened Orders
  import opened SupplyChains
  import Utils

  /** The order is addressed to `role` and due in `week`. */
  predicate IsDue(o: Order, role: string, week: int) {
    o.toRole == role && o.deliveryWeek == week
  }

  /**
   * The orders of a ledger that are due for `role` in `week`, in ledger
   * order: each due order as often as the ledger holds it, no other order.
   */
  function DueOrders(ledger: seq<Order>, role: string, week: int): (due: seq<Order>)
    ensures |due| <= |ledger|
    ensures forall o :: o in due <==> o in ledger && IsDue(o, role, week)
    ensures forall o {:trigger multiset(due)[o]} :: multiset(due)[o] == if IsDue(o, role, week) then multiset(ledger)[o] else 0
  {
    if ledger == [] then []
    else
      assert ledger == [ledger[0]] + ledger[1..];
      if IsDue(ledger[0], role, week) then [ledger[0]] + DueOrders(ledger[1..], role, week)
      else DueOrders(ledger[1..], role, week)
  }

  /**
   * `_get_incoming_orders`: returns the updated ledger and the arriving
   * orders. Every order due for `role` in `week` is marked delivered in
   * that week, in place; every other order is left alone.
   */
  function GetIncomingOrders(ledger: seq<Order>, role: string, week: int): (r: (seq<Order>, seq<Order>))
    ensures |r.0| == |ledger|
    ensures forall i :: 0 <= i < |ledger| ==>
      r.0[i] == if IsDue(ledger[i], role, week) then Deliver(ledger[i], week) else ledger[i]
    ensures r.1 == DueOrders(r.0, role, week)
    ensures |r.1| == |DueOrders(ledger, role, week)|
    ensures forall o :: o in r.1 ==> o.status == Delivered && o.actualDeliveryWeek == Some(week)
    decreases |ledger|
  {
    if ledger == [] then ([], [])
    else
      var o := ledger[0];
      var (restLedger, restIncoming) := GetIncomingOrders(ledger[1..], role, week);
      if IsDue(o, role, week) then
        var d := Deliver(o, week);
        assert ([d] + restLedger)[1..] == restLedger;
        ([d] + restLedger, [d] + restIncoming)
      else
        assert ([o] + restLedger)[1..] == restLedger;
        ([o] + restLedger, restIncoming)
  }

  /**
   * Matching the same role and week a second time hands over the same
   * orders again and leaves the ledger as the first pass left it: the
   * weekly step is not re-entrant.
   */
  lemma {:induction false} IncomingTwice(ledger: seq<Order>, role: string, week: int)
    ensures var first := GetIncomingOrders(ledger, role, week);
      GetIncomingOrders(first.0, role, week) == first
    decreases |ledger|
  {
    if ledger != [] {
      IncomingTwice(ledger[1..], role, week);
      var first := GetIncomingOrders(ledger, role, week);
      var rest := GetIncomingOrders(ledger[1..], role, week);
      assert first.0[0] == (if IsDue(ledger[0], role, week) then Deliver(ledger[0], week) else ledger[0]);
      assert first.0[1..] == rest.0;
    }
  }

  /**
   * Lead time: an order placed at `created` with the four-week lead time
   * arrives for its addressee in week `created + 4` and in no other week.
   */
  lemma ArrivesAfterLeadTime(ledger: seq<Order>, i: int, created: int, role: string, week: int)
    requires 0 <= i < |ledger| && ledger[i].deliveryWeek == created + LeadTime
    requires ledger[i].toRole == role
    ensures week != created + LeadTime ==> GetIncomingOrders(ledger, role, week).0[i] == ledger[i]
    ensures week == created + LeadTime ==>
      GetIncomingOrders(ledger, role, week).0[i] == Deliver(ledger[i], week) &&
      Deliver(ledger[i], week) in GetIncomingOrders(ledger, role, week).1
  {
    var r := GetIncomingOrders(ledger, role, week);
    if week == created + LeadTime {
      assert r.0[i] in r.0;
    }
  }

  /** The total quantity carried by a list of orders. */
  function SumQuantities(orders: seq<Order>): int {
    if orders == [] then 0 else orders[0].quantity + SumQuantities(orders[1..])
  }

  lemma {:induction false} SumQuantitiesNonNegative(orders: seq<Order>)
    requires forall o :: o in orders ==> o.quantity >= 0
    ensures SumQuantities(orders) >= 0
  {
    if orders != [] {
      SumQuantitiesNonNegative(orders[1..]);
    }
  }

  /**
   * The arrivals carry exactly the quantity of the ledger's orders due for
   * the role this week.
   */
  lemma {:induction false} IncomingQuantity(ledger: seq<Order>, role: string, week: int)
    ensures SumQuantities(GetIncomingOrders(ledger, role, week).1) == SumQuantities(DueOrders(ledger, role, week))
    decreases |ledger|
  {
    if ledger != [] {
      IncomingQuantity(ledger[1..], role, week);
      var o := ledger[0];
      var rest := GetIncomingOrders(ledger[1..], role, week).1;
      var restDue := DueOrders(ledger[1..], role, week);
      if IsDue(o, role, week) {
        assert ([Deliver(o, week)] + rest)[1..] == rest;
        assert ([o] + restDue)[1..] == restDue;
      }
    }
  }

  /** The stock a node holds once this week's deliveries are in. */
  function Stocked(node: Node, ledger: seq<Order>, week: int): int {
    node.inventory + SumQuantities(GetIncomingOrders(ledger, node.role, week).1)
  }

  /**
   * `_process_node_week`: receives the arrivals, serves as much of the
   * demand (`incoming_order`) as stock allows, adds any shortfall to the
   * backorder (clearing it when demand is met), charges holding cost on the
   * remaining stock and stockout cost on the negative part of the
   * backorder, and appends to both histories. Returns the node and the
   * updated ledger.
   */
  function ProcessNodeWeek(node: Node, ledger: seq<Order>, week: int): (r: (Node, seq<Order>))
    ensures r.1 == GetIncomingOrders(ledger, node.role, week).0
    ensures var stocked := Stocked(node, ledger, week);
      && r.0.inventory == (if stocked >= node.incomingOrder then stocked - node.incomingOrder else 0)
      && (node.incomingOrder > stocked ==> r.0.backorder == node.backorder + (node.incomingOrder - stocked))
      && (node.incomingOrder <= stocked ==> r.0.backorder == 0)
    ensures r.0.inventory >= 0
    ensures node.backorder >= 0 ==> r.0.backorder >= 0
    ensures node.backorder >= 0 ==>
      r.0.totalCost == node.totalCost + r.0.inventory as real * HoldingCostPerUnit
    ensures node.backorder >= 0 ==> r.0.totalCost >= node.totalCost
    ensures r.0.ordersHistory == node.ordersHistory + [node.currentOrder]
    ensures r.0.inventoryHistory == node.inventoryHistory + [r.0.inventory]
    ensures r.0.role == node.role && r.0.playerId == node.playerId && r.0.playerName == node.playerName
    ensures r.0.currentOrder == node.currentOrder && r.0.incomingOrder == node.incomingOrder
  {
    var (ledger', incoming) := GetIncomingOrders(ledger, node.role, week);
    var inventory := node.inventory + SumQuantities(incoming);
    var demand := node.incomingOrder;
    var fulfilled := if inventory <= demand then inventory else demand;
    var inventory' := inventory - fulfilled;
    var backorder := if fulfilled < demand then node.backorder + (demand - fulfilled) else 0;
    var holdingCost := Utils.InventoryCost(inventory', HoldingCostPerUnit);
    var stockoutCost := Utils.BackorderCost(backorder, StockoutCostPerUnit);
    var node' := node.(
      inventory := inventory',
      backorder := backorder,
      totalCost := node.totalCost + (holdingCost + stockoutCost),
      ordersHistory := node.ordersHistory + [node.currentOrder],
      inventoryHistory := node.inventoryHistory + [inventory']);
    (node', ledger')
  }

  /**
   * `later` is `ledger` with some orders marked delivered in `week`: the
   * ledger an earlier node step of the same week can leave behind.
   */
  predicate DeliveredFrom(later: seq<Order>, ledger: seq<Order>, week: int) {
    |later| == |ledger| &&
    forall i :: 0 <= i < |ledger| ==> later[i] == ledger[i] || later[i] == Deliver(ledger[i], week)
  }

  /**
   * Marks left by earlier steps of the same week do not change what a role
   * receives: the match ignores status, and marking an order delivered
   * twice in one week is marking it once.
   */
  lemma {:induction false} IncomingIgnoresDeliveries(later: seq<Order>, ledger: seq<Order>, role: string, week: int)
    requires DeliveredFrom(later, ledger, week)
    ensures GetIncomingOrders(later, role, week).1 == GetIncomingOrders(ledger, role, week).1
    decreases |ledger|
  {
    if ledger != [] {
      assert DeliveredFrom(later[1..], ledger[1..], week) by {
        forall i | 0 <= i < |ledger[1..]|
          ensures later[1..][i] == ledger[1..][i] || later[1..][i] == Deliver(ledger[1..][i], week)
        {
          assert later[1..][i] == later[i + 1] && ledger[1..][i] == ledger[i + 1];
        }
      }
      IncomingIgnoresDeliveries(later[1..], ledger[1..], role, week);
      assert later[0] == ledger[0] || later[0] == Deliver(ledger[0], week);
      assert IsDue(later[0], role, week) == IsDue(ledger[0], role, week);
      if IsDue(ledger[0], role, week) {
        assert Deliver(later[0], week) == Deliver(ledger[0], week);
      }
    }
  }

  /** A node's step depends on the ledger only through what its role receives. */
  lemma NodeStepIgnoresDeliveries(node: Node, later: seq<Order>, ledger: seq<Order>, week: int)
    requires DeliveredFrom(later, ledger, week)
    ensures ProcessNodeWeek(node, later, week).0 == ProcessNodeWeek(node, ledger, week).0
  {
    IncomingIgnoresDeliveries(later, ledger, node.role, week);
  }

  /**
   * Goods are conserved: what leaves the node this week plus what stays on
   * hand equals the stock after arrivals, and no more than the demand leaves.
   */
  lemma ShipmentConservation(node: Node, ledger: seq<Order>, week: int)
    requires node.incomingOrder >= 0 && Stocked(node, ledger, week) >= 0
    ensures var shipped := Stocked(node, ledger, week) - ProcessNodeWeek(node, ledger, week).0.inventory;
      0 <= shipped <= node.incomingOrder
  {
  }

  /**
   * The stored histories grow by exactly one entry each week and are never
   * truncated; only the dictionary view windows them.
   */
  lemma {:induction false} HistoriesGrowUnbounded(node: Node, ledger: seq<Order>, week: int, n: nat)
    ensures |RunWeeks(node, ledger, week, n).ordersHistory| == |node.ordersHistory| + n
    ensures |RunWeeks(node, ledger, week, n).inventoryHistory| == |node.inventoryHistory| + n
    ensures |ViewNode(RunWeeks(node, ledger, week, n)).ordersHistory| <= HistoryWindow
    decreases n
  {
    if n > 0 {
      var (node', ledger') := ProcessNodeWeek(node, ledger, week);
      HistoriesGrowUnbounded(node', ledger', week + 1, n - 1);
    }
  }

  /** The node after `n` consecutive weekly steps from week `week`, each seeing the ledger the previous one left. */
  function RunWeeks(node: Node, ledger: seq<Order>, week: int, n: nat): Node
    decreases n
  {
    if n == 0 then node
    else
      var (node', ledger') := ProcessNodeWeek(node, ledger, week);
      RunWeeks(node', ledger', week + 1, n - 1)
  }

  /**
   * A new Shop with 100 units facing a demand of 30 for five weeks and no
   * deliveries: inventory runs 70, 40, 10, 0, 0, the backorder runs
   * 0, 0, 0, 20, 50 (it accumulates) and, because the stockout charge is
   * zero for a non-negative backorder, the cost is 35 + 20 + 5 = 60.
   */
  lemma ShopFiveWeekScenario(playerId: string, playerName: string)
    ensures var start := NewNode(Shop, playerId, playerName, InitialInventory).(incomingOrder := 30);
      var after := RunWeeks(start, [], 1, 5);
      && after.inventoryHistory == [70, 40, 10, 0, 0]
      && after.backorder == 50
      && after.totalCost == 60.0
  {
    var start := NewNode(Shop, playerId, playerName, InitialInventory).(incomingOrder := 30);
    var n1 := ProcessNodeWeek(start, [], 1).0;
    assert n1.inventory == 70 && n1.backorder == 0 && n1.totalCost == 35.0;
    var n2 := ProcessNodeWeek(n1, [], 2).0;
    assert n2.inventory == 40 && n2.backorder == 0 && n2.totalCost == 55.0;
    var n3 := ProcessNodeWeek(n2, [], 3).0;
    assert n3.inventory == 10 && n3.backorder == 0 && n3.totalCost == 60.0;
    var n4 := ProcessNodeWeek(n3, [], 4).0;
    assert n4.inventory == 0 && n4.backorder == 20 && n4.totalCost == 60.0;
    var n5 := ProcessNodeWeek(n4, [], 5).0;
    assert n5.inventory == 0 && n5.backorder == 50 && n5.totalCost == 60.0;
    assert RunWeeks(n5, [], 6, 0) == n5;
    assert RunWeeks(n4, [], 5, 1) == n5;
    assert RunWeeks(n3, [], 4, 2) == n5;
    assert RunWeeks(n2, [], 3, 3) == n5;
    assert RunWeeks(n1, [], 2, 4) == n5;
  }
}

=== FILE: orders.dfy ===
/** The order record of `backend/models/orders.py`. */
module Orders {
  import opened Wrappers

  /** `OrderStatus`: five states, of which the engine only ever assigns two. */
  datatype OrderStatus = Pending | Confirmed | Shipped | Delivered | Cancelled

  /** The string value each status serialises to; `ParseStatus` reads it back. */
  function StatusValue(s: OrderStatus): (v: string)
    ensures ParseStatus(v) == Some(s)
  {
    match s
    case Pending => "pending"
    case Confirmed => "confirmed"
    case Shipped => "shipped"
    case Delivered => "delivered"
    case Cancelled => "cancelled"
  }

  /**
   * `OrderStatus(value)`: the status whose string value is `value`, or
   * nothing (Python raises `ValueError`) for any other string.
   */
  function ParseStatus(v: string): Option<OrderStatus> {
    if v == "pending" then Some(Pending)
    else if v == "confirmed" then Some(Confirmed)
    else if v == "shipped" then Some(Shipped)
    else if v == "delivered" then Some(Delivered)
    else if v == "cancelled" then Some(Cancelled)
    else None
  }

  /** A string that parses names the status that serialises to it. */
  lemma ParseStatusInverse(v: string, s: OrderStatus)
    requires ParseStatus(v) == Some(s)
    ensures StatusValue(s) == v
  {
  }

  /** The five statuses serialise to five distinct strings. */
  lemma StatusValuesDistinct(a: OrderStatus, b: OrderStatus)
    requires StatusValue(a) == StatusValue(b)
    ensures a == b
  {
  }

  datatype Order = Order(
    orderId: string,
    fromRole: string,
    toRole: string,
    supplyChainId: string,
    gameId: string,
    quantity: int,
    status: OrderStatus,
    createdWeek: int,
    deliveryWeek: int,
    actualDeliveryWeek: Option<int>)

  /** A freshly constructed order: pending and not yet delivered. */
  function NewOrder(orderId: string, fromRole: string, toRole: string, supplyChainId: string,
                    gameId: string, quantity: int, createdWeek: int, deliveryWeek: int): (o: Order)
    ensures o.status == Pending && o.actualDeliveryWeek == None
    ensures o.orderId == orderId && o.fromRole == fromRole && o.toRole == toRole
    ensures o.supplyChainId == supplyChainId && o.gameId == gameId && o.quantity == quantity
    ensures o.createdWeek == createdWeek && o.deliveryWeek == deliveryWeek
  {
    Order(orderId, fromRole, toRole, supplyChainId, gameId, quantity, Pending,
          createdWeek, deliveryWeek, None)
  }

  /** What the engine does to an order it hands over in week `week`. */
  function Deliver(o: Order, week: int): (d: Order)
    ensures d.status == Delivered && d.actualDeliveryWeek == Some(week)
    ensures d.(status := o.status, actualDeliveryWeek := o.actualDeliveryWeek) == o
  {
    o.(status := Delivered, actualDeliveryWeek := Some(week))
  }

  /**
   * The two statuses the engine ever writes: `Pending` when an order is
   * created and `Delivered` when it arrives; the other three are never set.
   */
  predicate PendingOrDelivered(o: Order) {
    o.status == Pending || o.status == Delivered
  }

  /** Every order of a ledger is pending or delivered. */
  predicate LedgerPendingOrDelivered(ledger: seq<Order>) {
    forall i :: 0 <= i < |ledger| ==> PendingOrDelivered(ledger[i])
  }

  /**
   * `Order.is_delayed`: a delivered order compares its recorded delivery
   * week (0 when absent) with the promised one; any other order compares
   * the current week with the promised one.
   */
  function IsDelayed(o: Order, currentWeek: int): (delayed: bool)
    ensures o.status != Delivered ==> (delayed <==> currentWeek > o.deliveryWeek)
    ensures o.status == Delivered && o.actualDeliveryWeek.Some? ==>
      (delayed <==> o.actualDeliveryWeek.value > o.deliveryWeek)
    ensures o.status == Delivered && o.actualDeliveryWeek.None? ==> (delayed <==> o.deliveryWeek < 0)
  {
    if o.status == Delivered then
      o.actualDeliveryWeek.GetOr(0) > o.deliveryWeek
    else
      currentWeek > o.deliveryWeek && o.status != Delivered
  }

  /** For a delivered order the answer does not depend on the week asked about. */
  lemma DelayOfDeliveredIgnoresWeek(o: Order, w1: int, w2: int)
    requires o.status == Delivered
    ensures IsDelayed(o, w1) == IsDelayed(o, w2)
    ensures o.actualDeliveryWeek.Some? ==>
      (IsDelayed(o, w1) <==> o.actualDeliveryWeek.value > o.deliveryWeek)
    ensures o.actualDeliveryWeek.None? ==> (IsDelayed(o, w1) <==> o.deliveryWeek < 0)
  {
  }

  /** An undelivered order is delayed exactly once the current week passes its delivery week. */
  lemma DelayOfUndelivered(o: Order, week: int)
    requires o.status != Delivered
    ensures IsDelayed(o, week) <==> week > o.deliveryWeek
  {
  }

  /** Once delayed, an undelivered order stays delayed in every later week. */
  lemma DelayOfUndeliveredPersists(o: Order, week: int, later: int)
    requires o.status != Delivered && week <= later && IsDelayed(o, week)
    ensures IsDelayed(o, later)
  {
  }

  /** An order handed over in its own delivery week is never delayed. */
  lemma DeliveredOnTimeNotDelayed(o: Order, currentWeek: int)
    ensures !IsDelayed(Deliver(o, o.deliveryWeek), currentWeek)
  {
  }

  /** Handing an order over later than promised makes it delayed for good. */
  lemma DeliveredLateIsDelayed(o: Order, week: int, currentWeek: int)
    requires week > o.deliveryWeek
    ensures IsDelayed(Deliver(o, week), currentWeek)
  {
  }
}

=== FILE: supply_chain.dfy ===
/** The node and chain records of `backend/models/supply_chain.py`. */
module SupplyChains {
  import opened Wrappers
  import opened Config

  /** `SupplyChainNode`: one role's state within one supply chain. */
  datatype Node = Node(
    role: string,
    playerId: string,
    playerName: string,
    inventory: int,
    backorder: int,
    currentOrder: int,
    incomingOrder: int,
    totalCost: real,
    ordersHistory: seq<int>,
    inventoryHistory: seq<int>)

  /** A node built with the dataclass defaults for everything but its inventory. */
  function NewNode(role: string, playerId: string, playerName: string, inventory: int): (n: Node)
    ensures n.role == role && n.playerId == playerId && n.playerName == playerName
    ensures n.inventory == inventory
    ensures n.backorder == 0 && n.currentOrder == 0 && n.incomingOrder == 0
    ensures n.totalCost == 0.0
    ensures n.ordersHistory == [] && n.inventoryHistory == []
  {
    Node(role, playerId, playerName, inventory, 0, 0, 0, 0.0, [], [])
  }

  /** Python's `history[-52:]`: the most recent entries, at most 52 of them. */
  function Window(history: seq<int>): (w: seq<int>)
    ensures |w| == if |history| < HistoryWindow then |history| else HistoryWindow
    ensures w == history[|history| - |w|..]
  {
    if |history| <= HistoryWindow then history else history[|history| - HistoryWindow..]
  }

  /** Appending to the history slides the window: the oldest entry drops once it is full. */
  lemma WindowSlides(history: seq<int>, x: int)
    ensures Window(history + [x]) ==
      (if |history| < HistoryWindow then Window(history) else Window(history)[1..]) + [x]
  {
    var h := history + [x];
    if |history| >= HistoryWindow {
      assert Window(h) == h[|h| - HistoryWindow..];
      assert Window(history)[1..] == history[|history| - HistoryWindow + 1..];
      assert h[|h| - HistoryWindow..] == history[|history| - HistoryWindow + 1..] + [x];
    }
  }

  /** `SupplyChainNode.to_dict`. */
  datatype NodeView = NodeView(
    role: string,
    playerId: string,
    playerName: string,
    inventory: int,
    backorder: int,
    currentOrder: int,
    incomingOrder: int,
    totalCost: real,
    ordersHistory: seq<int>,
    inventoryHistory: seq<int>)

  /** The view reports every scalar as stored and windows both histories. */
  function ViewNode(n: Node): (v: NodeView)
    ensures v.role == n.role && v.playerId == n.playerId && v.playerName == n.playerName
    ensures v.inventory == n.inventory && v.backorder == n.backorder
    ensures v.currentOrder == n.currentOrder && v.incomingOrder == n.incomingOrder
    ensures v.totalCost == n.totalCost
    ensures |v.ordersHistory| == if |n.ordersHistory| < HistoryWindow then |n.ordersHistory| else HistoryWindow
    ensures |v.inventoryHistory| == if |n.inventoryHistory| < HistoryWindow then |n.inventoryHistory| else HistoryWindow
    ensures v.ordersHistory == n.ordersHistory[|n.ordersHistory| - |v.ordersHistory|..]
    ensures v.inventoryHistory == n.inventoryHistory[|n.inventoryHistory| - |v.inventoryHistory|..]
    ensures |n.ordersHistory| <= HistoryWindow ==> v.ordersHistory == n.ordersHistory
    ensures |n.inventoryHistory| <= HistoryWindow ==> v.inventoryHistory == n.inventoryHistory
  {
    NodeView(n.role, n.playerId, n.playerName, n.inventory, n.backorder, n.currentOrder,
             n.incomingOrder, n.totalCost, Window(n.ordersHistory), Window(n.inventoryHistory))
  }

  /**
   * `SupplyChain`: four optional role slots. `storedCost` is the dataclass's
   * own `total_cost` field, which nothing ever updates.
   */
  datatype Chain = Chain(
    chainId: string,
    gameId: string,
    shop: Option<Node>,
    retailer: Option<Node>,
    wholesaler: Option<Node>,
    factory: Option<Node>,
    currentWeek: int,
    storedCost: real)

  /** A chain built with the dataclass defaults. */
  function NewChain(chainId: string, gameId: string): (c: Chain)
    ensures c.chainId == chainId && c.gameId == gameId
    ensures forall role :: GetNode(c, role) == None
    ensures c.currentWeek == 0 && c.storedCost == 0.0
  {
    Chain(chainId, gameId, None, None, None, None, 0, 0.0)
  }

  /** `SupplyChain.get_node`: the slot named by `role`; nothing for any other string. */
  function GetNode(c: Chain, role: string): (n: Option<Node>)
    ensures !IsRole(role) ==> n == None
  {
    if role == Shop then c.shop
    else if role == Retailer then c.retailer
    else if role == Wholesaler then c.wholesaler
    else if role == Factory then c.factory
    else None
  }

  /** `SupplyChain.set_node`: fills one role slot, silently ignoring an unknown role. */
  function SetNode(c: Chain, role: string, n: Node): (r: Chain)
    ensures IsRole(role) ==> GetNode(r, role) == Some(n)
    ensures forall other :: other != role ==> GetNode(r, other) == GetNode(c, other)
    ensures !IsRole(role) ==> r == c
    ensures r.chainId == c.chainId && r.gameId == c.gameId
    ensures r.currentWeek == c.currentWeek && r.storedCost == c.storedCost
  {
    if role == Shop then c.(shop := Some(n))
    else if role == Retailer then c.(retailer := Some(n))
    else if role == Wholesaler then c.(wholesaler := Some(n))
    else if role == Factory then c.(factory := Some(n))
    else c
  }

  /** Two chains with the same header fields and the same node in every role slot are equal. */
  lemma ChainExtensionality(a: Chain, b: Chain)
    requires a.chainId == b.chainId && a.gameId == b.gameId
    requires a.currentWeek == b.currentWeek && a.storedCost == b.storedCost
    requires forall role :: IsRole(role) ==> GetNode(a, role) == GetNode(b, role)
    ensures a == b
  {
    assert GetNode(a, Shop) == GetNode(b, Shop);
    assert GetNode(a, Retailer) == GetNode(b, Retailer);
    assert GetNode(a, Wholesaler) == GetNode(b, Wholesaler);
    assert GetNode(a, Factory) == GetNode(b, Factory);
  }

  /** The present nodes of a sequence of slots, in order. */
  function Present(slots: seq<Option<Node>>): (r: seq<Node>)
    ensures |r| <= |slots|
    ensures forall x :: x in r <==> Some(x) in slots
  {
    if slots == [] then []
    else if slots[0].Some? then [slots[0].value] + Present(slots[1..])
    else Present(slots[1..])
  }

  /** The number of filled slots. */
  function CountSome(slots: seq<Option<Node>>): nat {
    if slots == [] then 0 else (if slots[0].Some? then 1 else 0) + CountSome(slots[1..])
  }

  /**
   * `Present` keeps the slot order: the node of filled slot `i` sits at the
   * position given by the number of filled slots before it.
   */
  lemma {:induction false} PresentPositions(slots: seq<Option<Node>>)
    ensures |Present(slots)| == CountSome(slots)
    ensures forall i :: 0 <= i < |slots| && slots[i].Some? ==>
      CountSome(slots[..i]) < |Present(slots)| && Present(slots)[CountSome(slots[..i])] == slots[i].value
  {
    if slots != [] {
      var rest := slots[1..];
      PresentPositions(rest);
      forall i | 0 <= i < |slots| && slots[i].Some?
        ensures CountSome(slots[..i]) < |Present(slots)| && Present(slots)[CountSome(slots[..i])] == slots[i].value
      {
        if i == 0 {
          assert slots[..i] == [];
        } else {
          var prefix := slots[..i];
          assert prefix[0] == slots[0] && prefix[1..] == rest[..i - 1];
          assert slots[i] == rest[i - 1];
        }
      }
    }
  }

  /** The four slots in role order. */
  function Slots(c: Chain): (s: seq<Option<Node>>)
    ensures |s| == |Roles|
    ensures forall i :: 0 <= i < |Roles| ==> s[i] == GetNode(c, Roles[i])
  {
    [c.shop, c.retailer, c.wholesaler, c.factory]
  }

  /**
   * `SupplyChain.get_nodes`: the present nodes, at most four, in the order
   * Shop, Retailer, Wholesaler, Factory. The node of role `Roles[i]` sits
   * after exactly the present nodes of the roles before it.
   */
  function GetNodes(c: Chain): (ns: seq<Node>)
    ensures |ns| <= 4
    ensures |ns| == CountSome(Slots(c))
    ensures forall n :: n in ns <==> exists role :: IsRole(role) && GetNode(c, role) == Some(n)
    ensures forall i :: 0 <= i < |Roles| && GetNode(c, Roles[i]).Some? ==>
      CountSome(Slots(c)[..i]) < |ns| && ns[CountSome(Slots(c)[..i])] == GetNode(c, Roles[i]).value
  {
    var slots := Slots(c);
    PresentPositions(slots);
    assert forall n :: Some(n) in slots <==> exists role :: IsRole(role) && GetNode(c, role) == Some(n) by {
      forall n
        ensures Some(n) in slots <==> exists role :: IsRole(role) && GetNode(c, role) == Some(n)
      {
        if Some(n) in slots {
          var i :| 0 <= i < 4 && slots[i] == Some(n);
          assert IsRole(Roles[i]) && GetNode(c, Roles[i]) == Some(n);
        }
      }
    }
    Present(slots)
  }

  /** The cost of one slot: zero when it is empty. */
  function SlotCost(slot: Option<Node>): real {
    match slot
    case Some(n) => n.totalCost
    case None => 0.0
  }

  function SumCosts(ns: seq<Node>): real {
    if ns == [] then 0.0 else ns[0].totalCost + SumCosts(ns[1..])
  }

  /** `SupplyChain.calculate_total_cost`: the summed cost of the present nodes. */
  function TotalCost(c: Chain): (total: real)
    ensures total == SlotCost(c.shop) + SlotCost(c.retailer) + SlotCost(c.wholesaler) + SlotCost(c.factory)
  {
    var slots := Slots(c);
    PresentCost(slots);
    var s1, s2, s3 := slots[1..], slots[1..][1..], slots[1..][1..][1..];
    assert SlotsCost(s3) == SlotCost(c.factory) + SlotsCost(s3[1..]) && s3[1..] == [];
    assert SlotsCost(s2) == SlotCost(c.wholesaler) + SlotsCost(s3);
    assert SlotsCost(s1) == SlotCost(c.retailer) + SlotsCost(s2);
    assert SlotsCost(slots) == SlotCost(c.shop) + SlotsCost(s1);
    SumCosts(GetNodes(c))
  }

  lemma {:induction false} PresentCost(slots: seq<Option<Node>>)
    ensures SumCosts(Present(slots)) == SlotsCost(slots)
  {
    if slots != [] {
      PresentCost(slots[1..]);
    }
  }

  function SlotsCost(slots: seq<Option<Node>>): real {
    if slots == [] then 0.0 else SlotCost(slots[0]) + SlotsCost(slots[1..])
  }

  /** With no nodes the chain costs nothing; with non-negative node costs it costs at least zero. */
  lemma TotalCostBounds(c: Chain)
    ensures GetNodes(c) == [] ==> TotalCost(c) == 0.0
    ensures (forall role :: IsRole(role) && GetNode(c, role).Some? ==> GetNode(c, role).value.totalCost >= 0.0) ==>
      TotalCost(c) >= 0.0
  {
    if forall role :: IsRole(role) && GetNode(c, role).Some? ==> GetNode(c, role).value.totalCost >= 0.0 {
      assert GetNode(c, Shop) == c.shop && IsRole(Shop);
      assert GetNode(c, Retailer) == c.retailer && IsRole(Retailer);
      assert GetNode(c, Wholesaler) == c.wholesaler && IsRole(Wholesaler);
      assert GetNode(c, Factory) == c.factory && IsRole(Factory);
    }
  }

  /** Replacing one slot changes the chain's cost by exactly the difference of the two occupants. */
  lemma SetNodeCost(c: Chain, role: string, n: Node)
    requires IsRole(role)
    ensures TotalCost(SetNode(c, role, n)) == TotalCost(c) - SlotCost(GetNode(c, role)) + n.totalCost
  {
    var r := SetNode(c, role, n);
    if role == Shop {
      assert r == c.(shop := Some(n));
    } else if role == Retailer {
      assert r == c.(retailer := Some(n));
    } else if role == Wholesaler {
      assert r == c.(wholesaler := Some(n));
    } else {
      assert r == c.(factory := Some(n));
    }
  }

  /** `SupplyChain.to_dict`. */
  datatype ChainView = ChainView(
    chainId: string,
    gameId: string,
    shop: Option<NodeView>,
    retailer: Option<NodeView>,
    wholesaler: Option<NodeView>,
    factory: Option<NodeView>,
    currentWeek: int,
    totalCost: real)

  function ViewSlot(slot: Option<Node>): Option<NodeView> {
    match slot
    case Some(n) => Some(ViewNode(n))
    case None => None
  }

  /** The chain view reports the recomputed node-cost sum, not the stored field. */
  function ViewChain(c: Chain): (v: ChainView)
    ensures v.chainId == c.chainId && v.gameId == c.gameId && v.currentWeek == c.currentWeek
    ensures v.totalCost == SlotCost(c.shop) + SlotCost(c.retailer) + SlotCost(c.wholesaler) + SlotCost(c.factory)
    ensures v.shop.Some? <==> c.shop.Some?
    ensures v.retailer.Some? <==> c.retailer.Some?
    ensures v.wholesaler.Some? <==> c.wholesaler.Some?
    ensures v.factory.Some? <==> c.factory.Some?
    ensures v.shop == (if c.shop.Some? then Some(ViewNode(c.shop.value)) else None)
    ensures v.retailer == (if c.retailer.Some? then Some(ViewNode(c.retailer.value)) else None)
    ensures v.wholesaler == (if c.wholesaler.Some? then Some(ViewNode(c.wholesaler.value)) else None)
    ensures v.factory == (if c.factory.Some? then Some(ViewNode(c.factory.value)) else None)
  {
    ChainView(c.chainId, c.gameId, ViewSlot(c.shop), ViewSlot(c.retailer), ViewSlot(c.wholesaler),
              ViewSlot(c.factory), c.currentWeek, TotalCost(c))
  }
}

=== FILE: utils.dfy ===
/**
 * The integer and dictionary helpers of `backend/core/utils.py` that the
 * engine and models rely on: identifiers, cost formulas, the demand
 * patterns without floating point or randomness, `clamp` and `deep_merge`.
 */
module Utils {

  /** The opaque 8-character token cut from a UUID by `generate_id`. */
  type Token = s: string | |s| == 8 witness "00000000"

  /**
   * `generate_id(prefix)`: the token alone for an empty prefix, otherwise
   * the prefix, an underscore and the token.
   */
  function GenerateId(prefix: string, token: Token): (id: string)
    ensures prefix == "" ==> id == token
    ensures prefix != "" ==> |id| == |prefix| + 9
    ensures prefix != "" ==> id[..|prefix|] == prefix && id[|prefix|] == '_'
    ensures id[|id| - 8..] == token
  {
    if prefix != "" then prefix + "_" + token else token
  }

  /** Two ids generated with the same prefix coincide only when their tokens do. */
  lemma GenerateIdInjective(prefix: string, t1: Token, t2: Token)
    requires GenerateId(prefix, t1) == GenerateId(prefix, t2)
    ensures t1 == t2
  {
    var id := GenerateId(prefix, t1);
    assert t1 == id[|id| - 8..] == t2;
  }

  predicate IsDigit(c: char) {
    '0' <= c <= '9'
  }

  predicate AllDigits(s: string) {
    forall j :: 0 <= j < |s| ==> IsDigit(s[j])
  }

  function DigitChar(d: nat): (c: char)
    requires d < 10
    ensures IsDigit(c)
  {
    "0123456789"[d]
  }

  lemma DigitCharInjective(a: nat, b: nat)
    requires a < 10 && b < 10 && DigitChar(a) == DigitChar(b)
    ensures a == b
  {
  }

  /** Python's `str(n)` for a non-negative integer: decimal digits, no leading zero. */
  function NatToString(n: nat): (s: string)
    ensures |s| > 0 && AllDigits(s)
    ensures n >= 10 ==> |s| >= 2
    decreases n
  {
    if n < 10 then [DigitChar(n)] else NatToString(n / 10) + [DigitChar(n % 10)]
  }

  /** Distinct numbers print differently. */
  lemma {:induction false} NatToStringInjective(a: nat, b: nat)
    requires NatToString(a) == NatToString(b)
    ensures a == b
    decreases a
  {
    var s := NatToString(a);
    if a < 10 {
      if b >= 10 {
        assert false;
      }
      DigitCharInjective(a, b);
    } else {
      if b < 10 {
        assert false;
      }
      var pa, pb := NatToString(a / 10), NatToString(b / 10);
      assert s == pa + [DigitChar(a % 10)];
      assert s == pb + [DigitChar(b % 10)];
      assert |pa| == |pb|;
      assert pa == s[..|s| - 1] == pb;
      NatToStringInjective(a / 10, b / 10);
      DigitCharInjective(a % 10, b % 10);
    }
  }

  /** `calculate_inventory_cost`: only a positive quantity is charged. */
  function InventoryCost(quantity: int, costPerUnit: real): (cost: real)
    ensures quantity <= 0 ==> cost == 0.0
    ensures quantity >= 0 ==> cost == quantity as real * costPerUnit
    ensures costPerUnit >= 0.0 ==> cost >= 0.0
  {
    (if quantity > 0 then quantity else 0) as real * costPerUnit
  }

  /**
   * `calculate_backorder_cost`: charges the NEGATIVE part of its argument,
   * so any non-negative backorder costs nothing.
   */
  function BackorderCost(quantity: int, costPerUnit: real): (cost: real)
    ensures quantity >= 0 ==> cost == 0.0
    ensures quantity < 0 ==> cost == (-quantity) as real * costPerUnit
    ensures costPerUnit >= 0.0 ==> cost >= 0.0
  {
    (if -quantity > 0 then -quantity else 0) as real * costPerUnit
  }

  /**
   * `calculate_demand` for the "step" and "constant" patterns and the
   * fall-through branch. Python's `//` floors; Dafny's `/` is Euclidean,
   * which agrees with flooring for the positive divisor 10, and `% 2` of
   * either is 0 or 1.
   */
  function Demand(pattern: string, week: int, amplitude: int, offset: int): (demand: int)
    requires pattern != "sine_wave" && pattern != "random"
    ensures pattern != "step" ==> demand == offset
    ensures pattern == "step" ==> demand == amplitude || demand == offset
  {
    if pattern == "step" then
      (if (week / 10) % 2 == 0 then amplitude else offset)
    else if pattern == "constant" then
      offset
    else
      offset
  }

  /** The step pattern alternates: ten weeks of `amplitude`, then ten of `offset`. */
  lemma StepDemandPhases(n: int, week: int, amplitude: int, offset: int)
    requires 20 * n <= week < 20 * n + 20
    ensures week < 20 * n + 10 ==> Demand("step", week, amplitude, offset) == amplitude
    ensures week >= 20 * n + 10 ==> Demand("step", week, amplitude, offset) == offset
  {
    var r := week - 20 * n;
    if r < 10 {
      assert week == 10 * (2 * n) + r;
      assert week / 10 == 2 * n;
      assert (2 * n) % 2 == 0;
    } else {
      assert week == 10 * (2 * n + 1) + (r - 10);
      assert week / 10 == 2 * n + 1;
      assert (2 * n + 1) % 2 == 1;
    }
  }

  /** Hence the step pattern repeats every 20 weeks. */
  lemma StepDemandPeriodic(week: int, amplitude: int, offset: int)
    ensures Demand("step", week + 20, amplitude, offset) == Demand("step", week, amplitude, offset)
  {
    var n := week / 20;
    StepDemandPhases(n, week, amplitude, offset);
    StepDemandPhases(n + 1, week + 20, amplitude, offset);
  }

  /** `clamp(value, min_val, max_val) = max(min_val, min(max_val, value))`. */
  function Clamp(value: real, minVal: real, maxVal: real): (r: real)
    ensures minVal <= maxVal ==> minVal <= r <= maxVal
    ensures minVal <= value <= maxVal ==> r == value
    ensures minVal <= maxVal && value < minVal ==> r == minVal
    ensures minVal <= maxVal && value > maxVal ==> r == maxVal
    ensures minVal > maxVal ==> r == minVal
  {
    var lower := if maxVal <= value then maxVal else value;
    if minVal >= lower then minVal else lower
  }

  /** A dictionary entry: a scalar, or a nested dictionary. */
  datatype Value = Leaf(text: string) | Dict(entries: map<string, Value>)

  /**
   * `deep_merge(base, updates)`: a copy of `base` in which every key of
   * `updates` is overwritten, except that two nested dictionaries under the
   * same key are merged recursively. `base` is a value here, so it is never
   * modified.
   */
  function DeepMerge(base: map<string, Value>, updates: map<string, Value>): (r: map<string, Value>)
    ensures r.Keys == base.Keys + updates.Keys
    ensures forall k :: k in base && k !in updates ==> r[k] == base[k]
    ensures forall k :: k in updates && !(k in base && base[k].Dict? && updates[k].Dict?) ==>
      r[k] == updates[k]
    ensures forall k :: k in updates && k in base && base[k].Dict? && updates[k].Dict? ==>
      r[k].Dict? && r[k].entries.Keys == base[k].entries.Keys + updates[k].entries.Keys
    ensures forall k :: k in updates && k in base && base[k].Dict? && updates[k].Dict? ==>
      r[k] == Dict(DeepMerge(base[k].entries, updates[k].entries))
    decreases Dict(updates), 0
  {
    map k | k in base.Keys + updates.Keys ::
      if k in updates then
        (if k in base then MergeValue(base[k], updates[k]) else updates[k])
      else
        base[k]
  }

  /** The value stored under a key both maps share. */
  function MergeValue(base: Value, update: Value): (r: Value)
    ensures !(base.Dict? && update.Dict?) ==> r == update
    ensures base.Dict? && update.Dict? ==>
      r.Dict? && r.entries.Keys == base.entries.Keys + update.entries.Keys
    ensures base.Dict? && update.Dict? ==> r == Dict(DeepMerge(base.entries, update.entries))
    decreases update, 1
  {
    if base.Dict? && update.Dict? then Dict(DeepMerge(base.entries, update.entries)) else update
  }

  /** Without nested dictionaries on both sides, `deep_merge` is the plain right-biased union. */
  lemma DeepMergeFlat(base: map<string, Value>, updates: map<string, Value>)
    requires forall k :: k in updates ==> updates[k].Leaf?
    ensures DeepMerge(base, updates) == base + updates
  {
  }

  /** Merging an empty update returns the base unchanged. */
  lemma DeepMergeEmptyUpdates(base: map<string, Value>)
    ensures DeepMerge(base, map[]) == base
  {
  }

  /** Merging into an empty base returns the updates unchanged. */
  lemma DeepMergeEmptyBase(updates: map<string, Value>)
    ensures DeepMerge(map[], updates) == updates
  {
  }

  /** Merging a dictionary with itself gives it back, at every nesting depth. */
  lemma {:induction false} DeepMergeSelf(m: map<string, Value>)
    ensures DeepMerge(m, m) == m
    decreases Dict(m), 0
  {
    forall k | k in m
      ensures MergeValue(m[k], m[k]) == m[k]
    {
      MergeValueSelf(m[k]);
    }
  }

  lemma {:induction false} MergeValueSelf(v: Value)
    ensures MergeValue(v, v) == v
    decreases v, 1
  {
    if v.Dict? {
      DeepMergeSelf(v.entries);
    }
  }
}

=== FILE: wrappers.dfy ===
/** Optional values and success-or-error results shared by every module of the model. */
module Wrappers {

  /** A value that may be absent; stands for Python's `Optional[...]` / `None`. */
  datatype Option<+T> = None | Some(value: T) {

    /** Returns the wrapped value, or `default` when there is none. */
    function GetOr(default: T): T {
      match this
      case Some(v) => v
      case None => default
    }
  }

  /** Either a successful value or an error. */
  datatype Result<+R, +E> = Success(value: R) | Failure(error: E)
}
